=== FILE: README.md ===
# Access-token cache policy and its neighbours, in Dafny

This project models the Google-services core of a Go App Engine support library. The main part is the access-token refresh policy in `impl/cloud/google.go`:

- the cache key is a normalisation of the requested OAuth2 scopes;
- a caller refreshes a cached token once it has expired, and randomly inside a three-minute window before expiry, to avoid a stampede;
- a freshly minted token is shortened by two minutes before it is cached;
- `Token()` chooses between serving from the cache, making a token source, and minting under `GetOrCreate`.

Around it the project models four smaller parts:

- the public-certificate loader (`impl/cloud/google_pre_go18.go`): it sorts the certificate list and classifies errors as transient or permanent;
- the datastore dumper's rendering rules (`service/datastore/dumper/dumper.go`);
- the in-memory `info` record with its clone-and-update semantics (`impl/memory/info.go`);
- the `module` service's factory and filter composition (`service/module/context.go`).

Everything is pure functions over immutable datatypes. Time is an integer number of nanoseconds. The clock, the random draw, the outcomes of network calls and the answers of the LRU cache are all parameters.

Modules, one per file:

- `Wrappers`: `Option` (Go's nil) and `Result` (Go's `(value, error)`).
- `Strings`: Go's byte-wise string order, modelled as code-point order. Code-point order agrees with byte order on valid UTF-8. Also the sorted keys of a map, `strings.Join` and `strings.Split`.
- `Scopes`: `accessTokenKeyForScopes`.
- `Refresh`: the constants, `closeToExpRandomized`, and the expiry adjustment made by the `Token()` loader.
- `TokenSource`: one call of `contextBoundTokenSource.Token()`. The cache is seen through a `CacheView`. It records what `Get` returned. It also records whether `GetOrCreate` found a live entry, or ran the loader instead.
- `Certificates`: `certsSorter`, the error-tracking reader and the `PublicCertificates` loader. The loader appears both as written and as corrected (see Findings).
- `Dumper`: `Config.Query`. Rendering produces the sequence of strings passed to `Fprintf`. A writer answers each write with `Full` or `Short(written, cause)`.
- `MemoryInfo`: `globalInfoData`, `curGID`, `useGID` and the `giImpl` methods.
- `ModuleContext`: `getUnfiltered`, `Get`, `SetFactory`, `Set`, `getCurFilters` and `AddFilters`.

Points where the code does less than its comments or messages suggest; the model follows the code:

- The comment on `accessTokenMinExpiration` (impl/cloud/google.go:44-46) calls two minutes the minimum expiration of a token. The loader rejects only a token that has already expired (`expiryDelta <= 0`, impl/cloud/google.go:218). A token with at most two minutes left is cached unchanged, with a TTL equal to its remaining lifetime. `Refresh.AdjustMinted` models the code.
- `publicCertificatesCacheExpiration` (impl/cloud/google.go:55-57) describes a one-hour cache period for certificates. The loader in impl/cloud/google_pre_go18.go, which is built only before Go 1.8, does not use it and reports a zero duration. `Certificates.LoadCertificates` reports `0`.
- The non-200 branch of that loader builds an error message about the HTTP status, but as written it returns no error (see Findings).

## Model

| member | source | states |
|---|---|---|
| Scopes.KeyIsSortedDistinctJoin | impl/cloud/google.go:251-260 | the key is the strictly ascending list of the distinct scopes joined by "\x00", whatever the input order |
| Scopes.KeyIgnoresOrderAndDuplicates | impl/cloud/google.go:251-260 | scope lists with the same elements, in any order and with any repetition, give the same key |
| Scopes.NoScopesEmptyKey | impl/cloud/google.go:251-260 | no scopes give the empty key |
| Scopes.KeyRoundTrip | impl/cloud/google.go:247-261 | for a non-empty scope list without "\x00", splitting the key on "\x00" gives back exactly the distinct scopes, in ascending order |
| Scopes.KeyInjective | impl/cloud/google.go:158-162 | two non-empty scope lists without "\x00" that have the same key have the same set of scopes, so a key never mixes tokens of different scope sets |
| Refresh.CloseToExpRandomized | impl/cloud/google.go:234-245 | a caller always refreshes once `now > exp`, never while `exp - now >= window`, and inside the window exactly when the draw exceeds `exp - now`; the three cases amount to `now + rnd > exp` |
| Refresh.RefreshStaysDue | impl/cloud/google.go:234-245 | for a fixed draw, a caller selected to refresh at some instant is also selected at every later instant |
| Refresh.BandIsRandomized | impl/cloud/google.go:240-243 | inside the window the decision depends on the draw: draw 0 keeps the token and a draw just past the remaining lifetime refreshes it |
| Refresh.AdjustMinted | impl/cloud/google.go:216-226 | a minted token is refused exactly when its expiry is not after `now`; otherwise the TTL is positive and equals the cached expiry minus `now`, and the expiry is two minutes earlier when more than two minutes remain, unchanged otherwise |
| Refresh.AdjustedExpiryConservative | impl/cloud/google.go:220-225 | the cached expiry is still in the future, never later than the real expiry, and at most two minutes earlier |
| Refresh.FreshMintNotRefreshed | impl/cloud/google.go:43-53 | a token minted with at least five minutes to live is not refreshed at its mint instant for any draw |
| Refresh.TenMinuteToken | impl/cloud/google.go:210-245 | a token minted at t with ten minutes left is cached until t+8min; no draw refreshes it at t+1min, at t+7min exactly the draws above one minute do, and at t+9min every draw does |
| TokenSource.Loader | impl/cloud/google.go:210-227 | a mint error is passed on. A token already expired at `now` gives the expired-token error naming its expiry and `now`. Otherwise the same token value comes back with a positive TTL equal to its remaining cached lifetime. Its expiry is two minutes earlier when more than two minutes were left, and unchanged otherwise |
| TokenSource.TokenCall | impl/cloud/google.go:189-232 | a cached token that is not due for refresh is returned as it is, with no token source made and no mint. Otherwise a token source is made. Its failure is returned and nothing is minted. If GetOrCreate finds a live entry, that entry is returned. If the loader runs, a mint error or an expired token gives that error and no cached entry. A success gives the minted token with its expiry two minutes earlier when more than two minutes were left, and unchanged otherwise |
| TokenSource.CachedTokenNotExpired | impl/cloud/google.go:194-198 | a token served from the `Get` fast path has not expired at the call's instant |
| TokenSource.RepeatedCallsWithinFreshWindow | impl/cloud/google.go:194-198 | while the cached token is at least the window from expiry, every call returns that same token and none makes a token source, whatever the draws |
| TokenSource.ExpiredTokenRefreshed | impl/cloud/google.go:194-206 | a cached token past its expiry is not served from the `Get` fast path; the call goes on to make a token source |
| Certificates.TrackedError | impl/cloud/google.go:145-156 | the tracking reader holds an error exactly when some read failed, and then it holds the error of the last failing read |
| Certificates.CertificatesOf | impl/cloud/google_pre_go18.go:70-78 | the certificate list of a map is sorted strictly by key name, has one certificate per map entry and holds each entry's value |
| Certificates.CertListUnique | impl/cloud/google_pre_go18.go:20-32 | only one list of certificates for a map is sorted by key name and holds exactly its entries, so the map's iteration order cannot change the result |
| Certificates.OneCertificatePerEntry | impl/cloud/google_pre_go18.go:71-77 | such a list has as many certificates as the map has entries, and it contains `Certificate(k, m[k])` for every key `k` |
| Certificates.InsertByKeyName | impl/cloud/google_pre_go18.go:26-28 | inserting a certificate with a new key name into a list sorted by key name keeps it sorted, and the result holds the old certificates plus the new one |
| Certificates.SortByKeyName | impl/cloud/google_pre_go18.go:78 | sorting certificates with distinct key names gives an ascending permutation of them |
| Certificates.BuildCertificates | impl/cloud/google_pre_go18.go:70-78 | appending one certificate per entry in any iteration order and then sorting gives the map's certificate list |
| Certificates.LoadCertificates | impl/cloud/google_pre_go18.go:41-80 | an unbuildable request is a permanent error. An unsent request or a non-200 status is transient. A decode failure is transient exactly when a body read failed. The loader succeeds only for a decoded 200 response, and then returns the sorted certificate list with a zero duration |
| Certificates.PublicCertificates | impl/cloud/google_pre_go18.go:36-85 | the live cached list if GetOrCreate finds one. Otherwise it succeeds exactly for a decoded 200 response, with that response's sorted certificate list. A non-200 status gives a transient "bad status" error. Every other error is tagged transient exactly for the transient fetch failures |
| Certificates.LoadCertificatesAsWritten | impl/cloud/google_pre_go18.go:41-80 | as written, the loader returns neither a value nor an error exactly when the response status is not 200 |
| Certificates.PublicCertificatesAsWritten | impl/cloud/google_pre_go18.go:36-85 | as written, the call panics on the nil type assertion exactly when the loader runs and the status is not 200 |
| Certificates.AsWrittenAgreesOffNonOkStatus | impl/cloud/google_pre_go18.go:46-68 | outside the non-200 branch, the loader as written and the corrected loader give the same outcome |
| Certificates.NotFoundPanicsAsWritten | impl/cloud/google_pre_go18.go:56-58 | a 404 response makes the call as written panic, where the corrected call returns a transient "bad status" error |
| Dumper.FmtVal | service/datastore/dumper/dumper.go:75-80 | a property filter registered for (kind, name) renders the value; without one, `Property.String()` does |
| Dumper.PropChunks | service/datastore/dumper/dumper.go:89-102 | one value is one write of `  "name": [v]` and a newline. With n > 1 values the first write opens the bracket and holds the first value; each further value is its own write, preceded by a comma, a newline and four spaces; a last write closes the bracket |
| Dumper.Header | service/datastore/dumper/dumper.go:109 | the header is a newline, the key's text, a colon and a newline |
| Dumper.PropText | service/datastore/dumper/dumper.go:89-102 | one value renders as `  "name": [v]` and a newline. Several values render one per line, indented by four spaces and separated by commas, between `  "name": [` and `  ]` |
| Dumper.KindLines | service/datastore/dumper/dumper.go:117-121 | a kind filter's output is written one line per write, each indented by two spaces and ended by a newline; removing the indentation and the newline and rejoining the lines gives back the output |
| Dumper.EntityChunks | service/datastore/dumper/dumper.go:104-137 | a skipped special entity writes nothing. Any other entity writes its header first. When its kind filter returns non-empty output, that output's lines follow the header and nothing else does |
| Dumper.PropertiesInAscendingOrder | service/datastore/dumper/dumper.go:126-135 | without kind filter output, the header is followed by the properties in strictly ascending name order, each written with the property layout |
| Dumper.EmptyKindFilterFallsBack | service/datastore/dumper/dumper.go:114-135 | a kind filter returning the empty string leaves the default rendering of the properties |
| Dumper.SpecialKinds | service/datastore/dumper/dumper.go:106-108 | "__" counts as special and "_" and "__a" do not; an entity of a special kind writes nothing unless `WithSpecial` is set |
| Dumper.Emit | service/datastore/dumper/dumper.go:82-87 | the count `n` equals the length of what reached the stream. Without an error everything was written, and the unused answers are those after the run's own writes. When the run's own writes all succeed, there is no error and everything is written, whatever the writer would answer later |
| Dumper.EmitStopsAtFirstError | service/datastore/dumper/dumper.go:93-99 | at the first failing write, all earlier writes are complete, the failing one is cut to what was written, nothing later is written, and its error is returned |
| Dumper.Query | service/datastore/dumper/dumper.go:63-139 | `n` equals the length of the output. When every write the dump makes succeeds, there is no error and the output is the whole dump of the entities |
| Dumper.EmitAppend | service/datastore/dumper/dumper.go:82-87 | writing `a ++ b` is writing `a` and, unless a write of `a` failed, then writing `b` with the answers left over, adding up the counts and outputs of both |
| Dumper.QueryWritesAllChunks | service/datastore/dumper/dumper.go:104-137 | the query's count, output, error and unused writer answers are those of writing all entities' writes in one run |
| Dumper.QueryStopsAtFirstError | service/datastore/dumper/dumper.go:93-120 | at the query's first failing write, all earlier writes of all entities are complete, the failing one is cut to what was written, nothing later is written, and that write's error is the query's |
| MemoryInfo.CurGID | impl/memory/info.go:44-49 | the stored record, or the default record when none is stored |
| MemoryInfo.UseGID | impl/memory/info.go:51-60 | the new context's record is the update applied to the current record (default if none), and the rest of the context is unchanged |
| MemoryInfo.MakeGI | impl/memory/info.go:64-68 | the implementation made for a context holds that context and its current record |
| MemoryInfo.GetNamespace | impl/memory/info.go:78 | an implementation made for a context reads that context's namespace, empty when no record is stored |
| MemoryInfo.AppID | impl/memory/info.go:90-92 | an implementation made for a context reads that context's application id, empty when no record is stored |
| MemoryInfo.FullyQualifiedAppID | impl/memory/info.go:94-96 | an implementation made for a context reads that context's fully qualified application id, empty when no record is stored |
| MemoryInfo.VersionID | impl/memory/info.go:110-112 | the version id of the record stored in the implementation's context at the time of the call, or "testVersionID.1" when none is stored |
| MemoryInfo.RequestID | impl/memory/info.go:114-116 | the request id of the record stored in the implementation's context at the time of the call, or "test-request-id" when none is stored |
| MemoryInfo.DefaultVersionHostname | impl/memory/info.go:98-100 | the host name is the application id followed by ".example.com" |
| MemoryInfo.SetVersionID | impl/memory/info.go:122-126 | the new record equals the old one except for its version id, which is the given one |
| MemoryInfo.SetRequestID | impl/memory/info.go:128-132 | the new record equals the old one except for its request id, which is the given one |
| MemoryInfo.Namespace | impl/memory/info.go:80-88 | an invalid namespace gives back the implementation's own context with the validator's error. A valid one gives no error and a record that differs only in its namespace |
| MemoryInfo.DefaultRecord | impl/memory/info.go:29-34 | with nothing stored, the version id is "testVersionID.1", the request id is "test-request-id", and the other fields are empty |
| MemoryInfo.SetVersionIDRoundTrip | impl/memory/info.go:110-126 | after `SetVersionID(v)` the next implementation reads `v`, while the request id, namespace and application id are unchanged |
| MemoryInfo.SetRequestIDRoundTrip | impl/memory/info.go:110-132 | after `SetRequestID(v)` the next implementation reads `v`, while the version id is unchanged |
| MemoryInfo.NamespaceRoundTrip | impl/memory/info.go:78-88 | after a valid `Namespace(ns)` the next implementation reads `ns`, while the version id is unchanged |
| MemoryInfo.UpdatesCompose | impl/memory/info.go:51-60 | a version-id update followed by a request-id update leaves both values in place and every other field as it was |
| ModuleContext.GetUnfiltered | service/module/context.go:29-34 | with a non-nil factory stored under the module key, the factory's result for the context; without one, nil |
| ModuleContext.GetCurFilters | service/module/context.go:61-67 | the filters stored under the filter key, or none when nothing is stored there |
| ModuleContext.Get | service/module/context.go:37-46 | no factory means nil, whatever filters are present. With no filters the result is the factory's. Otherwise the first filter receives the factory's result and the others follow in order |
| ModuleContext.SetFactory | service/module/context.go:50-52 | the stored factory produces the unfiltered result, and the filters and the rest of the context are untouched |
| ModuleContext.Set | service/module/context.go:57-59 | the unfiltered result is `gi`, and the filters and the rest of the context are untouched |
| ModuleContext.AddFilters | service/module/context.go:70-78 | adding no filters returns the context itself; otherwise the filters become the existing ones followed by the new ones, and the factory is untouched |
| ModuleContext.ApplyFiltersAppend | service/module/context.go:42-45 | applying `fs ++ gs` applies `fs` and then `gs` |
| ModuleContext.GetAfterAddFilters | service/module/context.go:70-78 | once a factory is set, `Get` after adding filters is the earlier `Get` passed through the new filters |
| ModuleContext.AddFiltersCompose | service/module/context.go:70-78 | adding `fs` and then `gs` gives the same context as adding `fs ++ gs` |
| ModuleContext.GetAfterSet | service/module/context.go:57-59 | after `Set(c, gi)` in a context without filters, `Get` returns `gi` |
| ModuleContext.FiltersRunInOrder | service/module/context.go:42-45 | two filters added one after the other run in that order over the value that was set |

## Findings

| source | as written | input that shows it | evidently intended | confidence | as-written member | corrected member |
|---|---|---|---|---|---|---|
| impl/cloud/google_pre_go18.go:56-58 | on a non-200 status the loader annotates `err`, which is nil there because the request was sent, so it returns no value and no error, and `v.([]infoS.Certificate)` then panics on the nil value | a response with status 404 | return a transient "received HTTP 404" error | not executed; relies on `errors.Annotate` of a nil error yielding nil (that package is not part of this model) | Certificates.NotFoundPanicsAsWritten | Certificates.PublicCertificates |

`Certificates.LoadCertificatesAsWritten` and `Certificates.PublicCertificatesAsWritten` model the code as written. `Certificates.AsWrittenAgreesOffNonOkStatus` shows that this branch is the only difference from the corrected loader.

## Left out

- `SignBytes` (impl/cloud/google.go:107-137): an IAM RPC over an HTTP client, with base64 encoding.
- `GoogleServiceProvider.TokenSource` (impl/cloud/google.go:88-98): it only binds the scope key (see `Scopes`) and a closure over `google.DefaultTokenSource`. Token minting is an opaque `Result` parameter.
- The LRU cache: eviction, the TTL bookkeeping, per-key locking and the single-flight behaviour of `GetOrCreate` are in a package that is not part of this model. Calls see the cache only through `CacheView` and through the `existing` parameter of `PublicCertificates`.
- TokenSource.ExpiredTokenRefreshed: only the `Get` fast path is shown to skip an expired token. If the cache counts an entry's TTL from the moment it was stored (the LRU package is not part of this model), `GetOrCreate` may still return an entry whose token expiry has passed, and `TokenCall` then returns it.
- TokenSource.TokenCall: when `GetOrCreate` finds a live entry, the model takes that entry as given. It claims nothing about whether an early refresh replaces the cached token.
- `clock.Now` and `mathrand.Int63n` are parameters. Time is unbounded integer nanoseconds, so Go's saturation of `time.Time.Sub` at about 292 years is not modelled.
- Refresh.CloseToExpRandomized requires the draw to lie in `[0, window)`, so the window is positive. The only caller passes three minutes; `Int63n` panics for a non-positive bound.
- The HTTP request, `resp.Body` and the JSON decoder in `PublicCertificates` are replaced by the `Fetch` outcome. Certificate data is kept as the decoded string that Go converts to bytes. `io.EOF` counts as a failed read, as it does for the tracking reader.
- Dumper.Query: `datastore.Run` is assumed to stop at the first error a callback returns and to return it. Errors of the query itself are not modelled. `Save` is taken to have already produced the property map, and its ignored error is left out. The entity key is given directly instead of being read from the `"key"` meta field.
- Dumper.Emit: counts one unit per character of the model's strings, where `Fprintf` counts bytes. The two agree for ASCII output.
- Dumper.EntityChunks: requires every default-rendered property to have at least one value. Go's `prop` reads the first value unconditionally (service/datastore/dumper/dumper.go:90-91), so a property with no values panics there; that panic is not modelled.
- Dumper.EntityChunks: a nil function stored in `PropFilters` or `KindFilters` is not modelled. A nil property filter falls back in Go, and a nil kind filter panics. `%q`, `Property.String()` and the key's `%s` rendering are parameters.
- `Config.Query`'s defaults are I/O choices: the nil query, and the nil output stream that becomes `os.Stdout`. So are the package-level `Query` and `All` (service/datastore/dumper/dumper.go:141-151), which run the default configuration on standard output.
- `support.ValidNamespace` is a parameter returning its error. `dummy.Info()` and the registration through `info.SetFactory` in `useGI` are external. `IsDevAppServer`, `ServiceAccount` and `GetTestable` return constants or the receiver and are not modelled.
- ModuleContext.Get: factories and filters receive the part of the context outside the package's two keys, because a datatype cannot hold functions of itself. A factory that reads the module keys of its own context is not modelled.
- Concurrency: simultaneous callers and lock contention.
- `publicCertificatesCacheExpiration` and `defaultGoogleServicesCacheSize` (impl/cloud/google.go:55-61): the certificate loader modelled here does not use the first. The second only sizes the LRU cache, which is not modelled.
- Strings that are not valid UTF-8: Go strings are byte sequences, and the model's strings are sequences of characters. `Strings.Less` agrees with Go's byte order only for valid UTF-8, so scopes, property names and certificate key names that are not valid UTF-8 are not modelled.

=== FILE: certificates.dfy ===
/** The public-certificate loader of impl/cloud/google_pre_go18.go: fetch the
    service account's certificate map, classify failures as transient or
    permanent, and turn the map into a list sorted by key name.

    The HTTP request, the response body and the JSON decoder are replaced by
    a `Fetch` value saying how far the exchange got. */
module Certificates {
  import opened Wrappers
  import opened Strings

  /** infoS.Certificate: a key name and its PEM data. */
  datatype Certificate = Certificate(keyName: string, data: string)

  /** The outcome of one `Read` on the response body. */
  datatype ReadResult = ReadOk | ReadFailed(cause: string)

  /** What the JSON decoder produced from the body. */
  datatype DecodeResult = Decoded(certMap: map<string, string>) | DecodeError(cause: string)

  /** How far the HTTP exchange got. `bodyReads` are the body reads the decoder
      made through the error-tracking reader. */
  datatype Fetch =
    | RequestNotBuilt(cause: string)
    | SendFailed(cause: string)
    | Responded(status: int, bodyReads: seq<ReadResult>, decode: DecodeResult)

  const StatusOK: int := 200

  /** Why the loader failed, with the error it wraps where there is one. */
  datatype Reason =
    | CreateRequest(cause: string)
    | SendRequest(cause: string)
    | BadStatus(status: int)
    | ReadBody(cause: string)
    | DecodeBody(cause: string)

  /** A loader error and whether it carries the transient tag. */
  datatype CertError = CertError(reason: Reason, transient: bool)

  /** The error the tracking reader retains after a sequence of reads: the
      last one that failed (`errTrackingReader.Read` overwrites it on each
      failing read). */
  function TrackedError(rs: seq<ReadResult>): (e: Option<string>)
    ensures e.None? <==> NoReadFailed(rs)
    ensures e.Some? ==> LastFailure(rs, e.value)
  {
    if |rs| == 0 then None
    else
      match rs[|rs| - 1]
      case ReadFailed(c) =>
        assert rs[|rs| - 1] == ReadFailed(c);
        Some(c)
      case ReadOk =>
        var e := TrackedError(rs[..|rs| - 1]);
        TrackedErrorOk(rs, e);
        e
  }

  predicate NoReadFailed(rs: seq<ReadResult>)
  {
    forall i | 0 <= i < |rs| :: rs[i].ReadOk?
  }

  /** `cause` is the error of a failed read followed only by good ones. */
  predicate LastFailure(rs: seq<ReadResult>, cause: string)
  {
    exists i | 0 <= i < |rs| :: rs[i] == ReadFailed(cause) && NoReadFailed(rs[i + 1..])
  }

  lemma TrackedErrorOk(rs: seq<ReadResult>, e: Option<string>)
    requires |rs| > 0 && rs[|rs| - 1].ReadOk?
    requires e.None? <==> NoReadFailed(rs[..|rs| - 1])
    requires e.Some? ==> LastFailure(rs[..|rs| - 1], e.value)
    ensures e.None? <==> NoReadFailed(rs)
    ensures e.Some? ==> LastFailure(rs, e.value)
  {
    var init := rs[..|rs| - 1];
    assert forall i | 0 <= i < |init| :: init[i] == rs[i];
    if e.Some? {
      var i :| 0 <= i < |init| && init[i] == ReadFailed(e.value) && NoReadFailed(init[i + 1..]);
      assert rs[i + 1..] == init[i + 1..] + [rs[|rs| - 1]];
      assert rs[i] == ReadFailed(e.value) && NoReadFailed(rs[i + 1..]);
    }
  }

  /** Keys in strictly ascending order (certsSorter.Less on distinct keys). */
  predicate SortedByKeyName(cs: seq<Certificate>)
  {
    forall i, j :: 0 <= i < j < |cs| ==> Less(cs[i].keyName, cs[j].keyName)
  }

  predicate DistinctKeyNames(cs: seq<Certificate>)
  {
    forall i, j :: 0 <= i < j < |cs| ==> cs[i].keyName != cs[j].keyName
  }

  function KeyNames(cs: seq<Certificate>): seq<string>
  {
    seq(|cs|, i requires 0 <= i < |cs| => cs[i].keyName)
  }

  function KeySet(cs: seq<Certificate>): set<string>
  {
    set c | c in cs :: c.keyName
  }

  /** `cs` is the certificate list of `certMap`: sorted by key name, one
      certificate per map entry, each holding that entry's value. */
  predicate CertListFor(certMap: map<string, string>, cs: seq<Certificate>)
  {
    && SortedByKeyName(cs)
    && KeySet(cs) == certMap.Keys
    && EntriesOf(certMap, cs)
  }

  /** The certificate list of a map, built from its sorted keys. */
  function CertificatesOf(certMap: map<string, string>): (cs: seq<Certificate>)
    ensures CertListFor(certMap, cs)
    ensures |cs| == |certMap|
  {
    var ks := SortedElements(certMap.Keys);
    SortedKeysInMap(certMap, ks);
    var cs := seq(|ks|, i requires 0 <= i < |ks| => Certificate(ks[i], certMap[ks[i]]));
    CertListFromSortedKeys(certMap, ks, cs);
    cs
  }

  lemma SortedKeysInMap(certMap: map<string, string>, ks: seq<string>)
    requires Elems(ks) == certMap.Keys
    ensures forall i | 0 <= i < |ks| :: ks[i] in certMap
  {
    forall i | 0 <= i < |ks|
      ensures ks[i] in certMap
    {
      assert ks[i] in Elems(ks);
    }
  }

  lemma CertListFromSortedKeys(certMap: map<string, string>, ks: seq<string>, cs: seq<Certificate>)
    requires StrictlySorted(ks) && Elems(ks) == certMap.Keys
    requires |cs| == |ks|
    requires forall i | 0 <= i < |ks| :: ks[i] in certMap && cs[i] == Certificate(ks[i], certMap[ks[i]])
    ensures CertListFor(certMap, cs)
  {
    assert SortedByKeyName(cs) by {
      forall i, j | 0 <= i < j < |cs|
        ensures Less(cs[i].keyName, cs[j].keyName)
      {
        assert cs[i].keyName == ks[i] && cs[j].keyName == ks[j];
      }
    }
    forall k | k in Elems(ks)
      ensures k in KeySet(cs)
    {
      var i :| 0 <= i < |ks| && ks[i] == k;
      assert cs[i] in cs;
    }
    forall k | k in KeySet(cs)
      ensures k in Elems(ks)
    {
      var c :| c in cs && c.keyName == k;
      var i :| 0 <= i < |cs| && cs[i] == c;
      assert ks[i] == k;
    }
  }

  lemma SortedKeyNames(cs: seq<Certificate>)
    requires SortedByKeyName(cs)
    ensures StrictlySorted(KeyNames(cs))
    ensures Elems(KeyNames(cs)) == KeySet(cs)
  {
    var ks := KeyNames(cs);
    forall k | k in KeySet(cs)
      ensures k in Elems(ks)
    {
      var c :| c in cs && c.keyName == k;
      var i :| 0 <= i < |cs| && cs[i] == c;
      assert ks[i] == k;
    }
  }

  /** A map has exactly one certificate list. */
  lemma CertListUnique(certMap: map<string, string>, a: seq<Certificate>, b: seq<Certificate>)
    requires CertListFor(certMap, a) && CertListFor(certMap, b)
    ensures a == b
  {
    SortedKeyNames(a);
    SortedKeyNames(b);
    SortedUnique(KeyNames(a), KeyNames(b));
    assert |a| == |KeyNames(a)| == |KeyNames(b)| == |b|;
    forall i | 0 <= i < |a|
      ensures a[i] == b[i]
    {
      assert KeyNames(a)[i] == KeyNames(b)[i];
    }
  }

  /** One certificate per map entry. */
  lemma OneCertificatePerEntry(certMap: map<string, string>, cs: seq<Certificate>)
    requires CertListFor(certMap, cs)
    ensures |cs| == |certMap|
    ensures forall k | k in certMap :: Certificate(k, certMap[k]) in cs
  {
    CertListUnique(certMap, cs, CertificatesOf(certMap));
    forall k | k in certMap
      ensures Certificate(k, certMap[k]) in cs
    {
      assert k in KeySet(cs);
      var c :| c in cs && c.keyName == k;
      var i :| 0 <= i < |cs| && cs[i] == c;
    }
  }

  /** Inserts a certificate with a new key name into a sorted list. */
  function InsertByKeyName(s: seq<Certificate>, c: Certificate): (r: seq<Certificate>)
    requires SortedByKeyName(s)
    requires forall i | 0 <= i < |s| :: s[i].keyName != c.keyName
    ensures SortedByKeyName(r)
    ensures multiset(r) == multiset(s) + multiset{c}
  {
    if |s| == 0 then [c]
    else if Less(c.keyName, s[0].keyName) then
      InsertFirst(s, c);
      [c] + s
    else
      var rest := InsertByKeyName(s[1..], c);
      InsertAfterFirst(s, c, rest);
      [s[0]] + rest
  }

  lemma InsertFirst(s: seq<Certificate>, c: Certificate)
    requires SortedByKeyName(s) && |s| > 0
    requires Less(c.keyName, s[0].keyName)
    ensures SortedByKeyName([c] + s)
  {
    forall j | 0 < j < |s|
      ensures Less(c.keyName, s[j].keyName)
    {
      LessTransitive(c.keyName, s[0].keyName, s[j].keyName);
    }
  }

  lemma InsertAfterFirst(s: seq<Certificate>, c: Certificate, rest: seq<Certificate>)
    requires SortedByKeyName(s) && |s| > 0
    requires !Less(c.keyName, s[0].keyName) && c.keyName != s[0].keyName
    requires SortedByKeyName(rest) && multiset(rest) == multiset(s[1..]) + multiset{c}
    ensures SortedByKeyName([s[0]] + rest)
    ensures multiset([s[0]] + rest) == multiset(s) + multiset{c}
  {
    LessTotal(c.keyName, s[0].keyName);
    forall j | 0 <= j < |rest|
      ensures Less(s[0].keyName, rest[j].keyName)
    {
      assert rest[j] in multiset(rest);
      if rest[j] != c {
        assert rest[j] in multiset(s[1..]);
        var k :| 0 <= k < |s[1..]| && s[1..][k] == rest[j];
        assert s[k + 1] == rest[j];
      }
    }
    assert s == [s[0]] + s[1..];
  }

  /** `sort.Sort(certsSorter(certs))` for certificates with distinct keys. */
  function SortByKeyName(xs: seq<Certificate>): (r: seq<Certificate>)
    requires DistinctKeyNames(xs)
    ensures SortedByKeyName(r)
    ensures multiset(r) == multiset(xs)
  {
    if |xs| == 0 then []
    else
      DistinctTail(xs);
      var sorted := SortByKeyName(xs[1..]);
      NewKeyName(xs, sorted);
      assert xs == [xs[0]] + xs[1..];
      InsertByKeyName(sorted, xs[0])
  }

  lemma DistinctTail(xs: seq<Certificate>)
    requires DistinctKeyNames(xs) && |xs| > 0
    ensures DistinctKeyNames(xs[1..])
  {
    forall i, j | 0 <= i < j < |xs[1..]|
      ensures xs[1..][i].keyName != xs[1..][j].keyName
    {
      assert xs[1..][i] == xs[i + 1] && xs[1..][j] == xs[j + 1];
    }
  }

  lemma NewKeyName(xs: seq<Certificate>, sorted: seq<Certificate>)
    requires DistinctKeyNames(xs) && |xs| > 0
    requires multiset(sorted) == multiset(xs[1..])
    ensures forall i | 0 <= i < |sorted| :: sorted[i].keyName != xs[0].keyName
  {
    forall i | 0 <= i < |sorted|
      ensures sorted[i].keyName != xs[0].keyName
    {
      assert sorted[i] in multiset(xs[1..]);
      var k :| 0 <= k < |xs[1..]| && xs[1..][k] == sorted[i];
      assert xs[k + 1] == sorted[i];
    }
  }

  lemma KeySetAppend(cs: seq<Certificate>, c: Certificate)
    ensures KeySet(cs + [c]) == KeySet(cs) + {c.keyName}
  {
    assert forall x :: x in cs + [c] <==> x in cs || x == c;
  }

  /** Every certificate holds the value its key has in the map. */
  predicate EntriesOf(certMap: map<string, string>, cs: seq<Certificate>)
  {
    forall i | 0 <= i < |cs| :: cs[i].keyName in certMap && cs[i].data == certMap[cs[i].keyName]
  }

  /** The Go loop: append one certificate per map entry in the map's
      (unspecified) iteration order, then sort by key name. */
  method BuildCertificates(certMap: map<string, string>) returns (certs: seq<Certificate>)
    ensures CertListFor(certMap, certs)
    ensures certs == CertificatesOf(certMap)
  {
    var unsorted: seq<Certificate> := [];
    var remaining := certMap.Keys;
    while remaining != {}
      invariant remaining <= certMap.Keys
      invariant KeySet(unsorted) == certMap.Keys - remaining
      invariant DistinctKeyNames(unsorted)
      invariant EntriesOf(certMap, unsorted)
      decreases remaining
    {
      var key :| key in remaining;
      AppendEntry(certMap, unsorted, key);
      unsorted := unsorted + [Certificate(key, certMap[key])];
      remaining := remaining - {key};
    }
    certs := SortByKeyName(unsorted);
    SortedEntriesAreCertList(certMap, unsorted, certs);
    CertListUnique(certMap, certs, CertificatesOf(certMap));
  }

  lemma AppendEntry(certMap: map<string, string>, cs: seq<Certificate>, key: string)
    requires key in certMap && key !in KeySet(cs)
    requires DistinctKeyNames(cs) && EntriesOf(certMap, cs)
    ensures DistinctKeyNames(cs + [Certificate(key, certMap[key])])
    ensures EntriesOf(certMap, cs + [Certificate(key, certMap[key])])
    ensures KeySet(cs + [Certificate(key, certMap[key])]) == KeySet(cs) + {key}
  {
    var c := Certificate(key, certMap[key]);
    forall i | 0 <= i < |cs|
      ensures cs[i].keyName != key
    {
      assert cs[i] in cs;
    }
    KeySetAppend(cs, c);
  }

  lemma SortedEntriesAreCertList(certMap: map<string, string>, unsorted: seq<Certificate>, certs: seq<Certificate>)
    requires KeySet(unsorted) == certMap.Keys && EntriesOf(certMap, unsorted)
    requires SortedByKeyName(certs) && multiset(certs) == multiset(unsorted)
    ensures CertListFor(certMap, certs)
  {
    forall i | 0 <= i < |certs|
      ensures certs[i].keyName in certMap && certs[i].data == certMap[certs[i].keyName]
    {
      assert certs[i] in multiset(unsorted);
      var k :| 0 <= k < |unsorted| && unsorted[k] == certs[i];
    }
    assert forall c :: c in certs <==> c in unsorted by {
      forall c
        ensures c in certs <==> c in unsorted
      {
        assert c in certs <==> c in multiset(certs);
        assert c in unsorted <==> c in multiset(unsorted);
      }
    }
  }

  /** The transient failures: the request could not be sent, the status was
      not 200, or decoding failed while the body reader had failed. */
  predicate TransientFetch(fetch: Fetch)
  {
    || fetch.SendFailed?
    || (fetch.Responded? && fetch.status != StatusOK)
    || (fetch.Responded? && fetch.decode.DecodeError? && TrackedError(fetch.bodyReads).Some?)
  }

  /** The loader passed to `GetOrCreate`, with the non-200 branch returning
      the transient error its message describes. On success it reports the
      certificate list and a zero duration. */
  function LoadCertificates(fetch: Fetch): (r: Result<(seq<Certificate>, int), CertError>)
    ensures fetch.RequestNotBuilt? ==> r == Failure(CertError(CreateRequest(fetch.cause), false))
    ensures fetch.SendFailed? ==> r == Failure(CertError(SendRequest(fetch.cause), true))
    ensures fetch.Responded? && fetch.status != StatusOK ==>
              r == Failure(CertError(BadStatus(fetch.status), true))
    ensures r.Failure? ==> (r.error.transient <==> TransientFetch(fetch))
    ensures r.Success? <==> fetch.Responded? && fetch.status == StatusOK && fetch.decode.Decoded?
    ensures r.Success? ==> CertListFor(fetch.decode.certMap, r.value.0) && r.value.1 == 0
  {
    match fetch
    case RequestNotBuilt(e) => Failure(CertError(CreateRequest(e), false))
    case SendFailed(e) => Failure(CertError(SendRequest(e), true))
    case Responded(status, bodyReads, decode) =>
      if status != StatusOK then Failure(CertError(BadStatus(status), true))
      else
        match decode
        case DecodeError(e) =>
          if TrackedError(bodyReads).Some? then Failure(CertError(ReadBody(e), true))
          else Failure(CertError(DecodeBody(e), false))
        case Decoded(certMap) => Success((CertificatesOf(certMap), 0))
  }

  /** `PublicCertificates`: the live cached list if `GetOrCreate` found one,
      otherwise the loader's list or error. */
  function PublicCertificates(existing: Option<seq<Certificate>>, fetch: Fetch): (r: Result<seq<Certificate>, CertError>)
    ensures existing.Some? ==> r == Success(existing.value)
    ensures existing.None? && r.Success? ==>
              fetch.Responded? && fetch.decode.Decoded? && CertListFor(fetch.decode.certMap, r.value)
    ensures existing.None? ==>
              (r.Success? <==> fetch.Responded? && fetch.status == StatusOK && fetch.decode.Decoded?)
    ensures existing.None? && fetch.Responded? && fetch.status != StatusOK ==>
              r == Failure(CertError(BadStatus(fetch.status), true))
    ensures existing.None? && r.Failure? ==> (r.error.transient <==> TransientFetch(fetch))
  {
    if existing.Some? then Success(existing.value)
    else
      match LoadCertificates(fetch)
      case Failure(e) => Failure(e)
      case Success(loaded) => Success(loaded.0)
  }

  // The loader as written, in Go's (value, duration, error) convention.

  /** Go's three results of the loader; `None` stands for nil. */
  datatype LoaderReturn = LoaderReturn(value: Option<seq<Certificate>>, ttl: int, err: Option<CertError>)

  /** `errors.Annotate(err, ...).Err()`: a nil error stays nil. */
  function Annotate(err: Option<string>, reason: string -> Reason, transient: bool): (r: Option<CertError>)
    ensures r.None? <==> err.None?
  {
    if err.None? then None else Some(CertError(reason(err.value), transient))
  }

  /** The loader as written: the non-200 branch annotates `err`, which is nil
      on that path, so the loader returns no value and no error. */
  function LoadCertificatesAsWritten(fetch: Fetch): (r: LoaderReturn)
    ensures r.err.None? && r.value.None? <==> fetch.Responded? && fetch.status != StatusOK
  {
    match fetch
    case RequestNotBuilt(e) => LoaderReturn(None, 0, Annotate(Some(e), c => CreateRequest(c), false))
    case SendFailed(e) => LoaderReturn(None, 0, Annotate(Some(e), c => SendRequest(c), true))
    case Responded(status, bodyReads, decode) =>
      if status != StatusOK then
        // err is the nil error of the successful send
        LoaderReturn(None, 0, Annotate(None, _ => BadStatus(status), true))
      else
        match decode
        case DecodeError(e) =>
          if TrackedError(bodyReads).Some? then LoaderReturn(None, 0, Annotate(Some(e), c => ReadBody(c), true))
          else LoaderReturn(None, 0, Annotate(Some(e), c => DecodeBody(c), false))
        case Decoded(certMap) => LoaderReturn(Some(CertificatesOf(certMap)), 0, None)
  }

  /** What `PublicCertificates` does: return an error, return a list, or
      panic on the type assertion of a nil value. */
  datatype Outcome = Returned(result: Result<seq<Certificate>, CertError>) | Panicked

  /** `PublicCertificates` over the loader as written. */
  function PublicCertificatesAsWritten(existing: Option<seq<Certificate>>, fetch: Fetch): (r: Outcome)
    ensures r.Panicked? <==> existing.None? && fetch.Responded? && fetch.status != StatusOK
  {
    if existing.Some? then Returned(Success(existing.value))
    else
      var ret := LoadCertificatesAsWritten(fetch);
      if ret.err.Some? then Returned(Failure(ret.err.value))
      else if ret.value.None? then Panicked
      else Returned(Success(ret.value.value))
  }

  /** Outside the non-200 branch the loader as written and the corrected one
      behave the same. */
  lemma AsWrittenAgreesOffNonOkStatus(existing: Option<seq<Certificate>>, fetch: Fetch)
    requires !(fetch.Responded? && fetch.status != StatusOK)
    ensures PublicCertificatesAsWritten(existing, fetch) == Returned(PublicCertificates(existing, fetch))
  {
  }

  /** A 404 response: as written the call panics instead of returning the
      transient error the corrected loader returns. */
  lemma NotFoundPanicsAsWritten()
    ensures PublicCertificatesAsWritten(None, Responded(404, [], Decoded(map[]))) == Panicked
    ensures PublicCertificates(None, Responded(404, [], Decoded(map[]))) ==
            Failure(CertError(BadStatus(404), true))
  {
  }
}

=== FILE: dumper.dfy ===
/** The datastore dumper of service/datastore/dumper/dumper.go: how
    `Config.Query` renders each entity, and how it counts and stops on the
    writes it makes.

    Rendering is split from writing. `EntityChunks` gives the strings the
    callback passes to `Fprintf`, one per call, in order. `Emit` hands them to
    a writer that can fail. `%q`, `Property.String()` and the rendering of a
    datastore key are parameters. */
module Dumper {
  import opened Wrappers
  import opened Strings

  /** A datastore key: its kind and its `%s` rendering. */
  datatype EntityKey = EntityKey(kind: string, text: string)

  /** An entity as the callback sees it after `Save`: its key and its
      properties, each with its list of values. */
  datatype Entity<P> = Entity(key: EntityKey, props: map<string, seq<P>>)

  /** dumper.Key: a kind and a property name. */
  datatype PropKey = PropKey(kind: string, propName: string)

  /** The rendering part of Config: whether special kinds are shown, and the
      property and kind filters. */
  datatype Config<!P> = Config(
    withSpecial: bool,
    propFilters: map<PropKey, P -> string>,
    kindFilters: map<string, (EntityKey, map<string, seq<P>>) -> string>)

  /** The formatting the dumper borrows: `%q` and `Property.String()`. */
  datatype Render<!P> = Render(quote: string -> string, show: P -> string)

  /** A kind that starts and ends with "__". */
  predicate IsSpecialKind(kind: string)
  {
    HasPrefix(kind, "__") && HasSuffix(kind, "__")
  }

  /** Whether the callback skips an entity of this kind. */
  predicate Skipped<P>(cfg: Config<P>, kind: string)
  {
    !cfg.withSpecial && IsSpecialKind(kind)
  }

  /** Whether a kind filter is registered for the entity and returns a
      non-empty rendering. */
  predicate KindFiltered<P>(cfg: Config<P>, e: Entity<P>)
  {
    e.key.kind in cfg.kindFilters && cfg.kindFilters[e.key.kind](e.key, e.props) != ""
  }

  /** Whether the entity's properties are rendered one by one. */
  predicate DefaultRendered<P>(cfg: Config<P>, e: Entity<P>)
  {
    !Skipped(cfg, e.key.kind) && !KindFiltered(cfg, e)
  }

  /** Every property has a value (the layout reads the first one). */
  predicate HasValues<P>(e: Entity<P>)
  {
    forall name | name in e.props :: |e.props[name]| >= 1
  }

  /** fmtVal: the property filter for (kind, name) if one is registered,
      otherwise `Property.String()`. */
  function FmtVal<P>(cfg: Config<P>, render: Render<P>, kind: string, name: string, v: P): (s: string)
    ensures PropKey(kind, name) in cfg.propFilters ==> s == cfg.propFilters[PropKey(kind, name)](v)
    ensures PropKey(kind, name) !in cfg.propFilters ==> s == render.show(v)
  {
    if PropKey(kind, name) in cfg.propFilters then cfg.propFilters[PropKey(kind, name)](v)
    else render.show(v)
  }

  /** The rendered values of one property, in order. */
  function RenderedValues<P>(cfg: Config<P>, render: Render<P>, kind: string, name: string, vals: seq<P>): (r: seq<string>)
    ensures |r| == |vals|
    ensures forall i | 0 <= i < |vals| :: r[i] == FmtVal(cfg, render, kind, name, vals[i])
  {
    seq(|vals|, i requires 0 <= i < |vals| => FmtVal(cfg, render, kind, name, vals[i]))
  }

  /** prop: the writes for one property. One value is written on one line;
      several are written as an opening line with the first value, one
      write per further value, and a closing bracket. */
  function PropChunks<P>(cfg: Config<P>, render: Render<P>, kind: string, name: string, vals: seq<P>): (r: seq<string>)
    requires |vals| >= 1
    ensures |vals| == 1 ==>
              r == ["  " + render.quote(name) + ": [" + FmtVal(cfg, render, kind, name, vals[0]) + "]\n"]
    ensures |vals| > 1 ==>
              && |r| == |vals| + 1
              && r[0] == "  " + render.quote(name) + ": [\n    " + FmtVal(cfg, render, kind, name, vals[0])
              && (forall i | 1 <= i < |vals| :: r[i] == ",\n    " + FmtVal(cfg, render, kind, name, vals[i]))
              && r[|vals|] == "\n  ]\n"
  {
    var q := render.quote(name);
    var vs := RenderedValues(cfg, render, kind, name, vals);
    if |vals| <= 1 then ["  " + q + ": [" + vs[0] + "]\n"]
    else
      ["  " + q + ": [\n    " + vs[0]]
      + seq(|vals| - 1, i requires 0 <= i < |vals| - 1 => ",\n    " + vs[i + 1])
      + ["\n  ]\n"]
  }

  /** The writes for the named properties, one property after the other. */
  function PropertiesChunks<P>(cfg: Config<P>, render: Render<P>, e: Entity<P>, names: seq<string>): seq<string>
    requires forall i | 0 <= i < |names| :: names[i] in e.props && |e.props[names[i]]| >= 1
  {
    if |names| == 0 then []
    else PropChunks(cfg, render, e.key.kind, names[0], e.props[names[0]])
         + PropertiesChunks(cfg, render, e, names[1..])
  }

  /** The header line of an entity. */
  function Header(key: EntityKey): (h: string)
    ensures |h| == |key.text| + 3
    ensures h[0] == '\n' && h[1..|h| - 2] == key.text && h[|h| - 2..] == ":\n"
  {
    "\n" + key.text + ":\n"
  }

  /** The writes for a kind filter's output: each of its lines, indented by
      two spaces and ended by a newline. Stripping the indentation and the
      newline and rejoining the lines gives back the output. */
  function KindLines(kindOut: string): (r: seq<string>)
    ensures |r| == |Split(kindOut, '\n')|
    ensures forall i | 0 <= i < |r| :: |r[i]| >= 3 && r[i][..2] == "  " && r[i][|r[i]| - 1] == '\n'
    ensures Join(seq(|r|, i requires 0 <= i < |r| => r[i][2..|r[i]| - 1]), "\n") == kindOut
  {
    var lines := Split(kindOut, '\n');
    var r := seq(|lines|, i requires 0 <= i < |lines| => "  " + lines[i] + "\n");
    assert seq(|r|, i requires 0 <= i < |r| => r[i][2..|r[i]| - 1]) == lines;
    JoinSplit(kindOut, '\n');
    r
  }

  /** The writes the `Run` callback makes for one entity, in order. */
  function EntityChunks<P>(cfg: Config<P>, render: Render<P>, e: Entity<P>): (r: seq<string>)
    requires DefaultRendered(cfg, e) ==> HasValues(e)
    ensures Skipped(cfg, e.key.kind) ==> r == []
    ensures !Skipped(cfg, e.key.kind) ==> |r| >= 1 && r[0] == Header(e.key)
    ensures KindFiltered(cfg, e) && !Skipped(cfg, e.key.kind) ==>
              r == [Header(e.key)] + KindLines(cfg.kindFilters[e.key.kind](e.key, e.props))
  {
    if Skipped(cfg, e.key.kind) then []
    else if KindFiltered(cfg, e) then
      [Header(e.key)] + KindLines(cfg.kindFilters[e.key.kind](e.key, e.props))
    else
      var names := SortedElements(e.props.Keys);
      assert forall i | 0 <= i < |names| :: names[i] in e.props by {
        forall i | 0 <= i < |names|
          ensures names[i] in e.props
        {
          assert names[i] in Elems(names);
        }
      }
      [Header(e.key)] + PropertiesChunks(cfg, render, e, names)
  }

  // Writing.

  /** How the writer answers one write: it takes all of it, or a part of it
      and fails. */
  datatype WriteReply = Full | Short(written: nat, cause: string)

  /** The result of a run of writes: the byte count `n`, the text that
      reached the stream, the error that stopped it, and the writer's
      answers still unused. */
  datatype Emitted = Emitted(n: nat, out: string, err: Option<string>, replies: seq<WriteReply>)

  predicate NeverFails(replies: seq<WriteReply>)
  {
    forall i | 0 <= i < |replies| :: replies[i].Full?
  }

  /** The writer takes the first `count` writes in full (answers it was
      never asked for do not matter). */
  predicate WritesSucceed(count: nat, replies: seq<WriteReply>)
  {
    forall i | 0 <= i < count && i < |replies| :: replies[i].Full?
  }

  /** The writes of one callback, stopping at the first failing one; answers
      beyond the end of `replies` are `Full`. */
  function Emit(chunks: seq<string>, replies: seq<WriteReply>): (r: Emitted)
    ensures r.n == |r.out|
    ensures r.err.None? ==> r.out == Concat(chunks)
    ensures NeverFails(replies) ==> r.err.None? && NeverFails(r.replies)
    ensures WritesSucceed(|chunks|, replies) ==> r.err.None? && r.out == Concat(chunks)
    ensures r.err.None? ==> r.replies == if |chunks| <= |replies| then replies[|chunks|..] else []
  {
    if |chunks| == 0 then Emitted(0, "", None, replies)
    else
      var reply := if |replies| == 0 then Full else replies[0];
      var rest := if |replies| == 0 then [] else replies[1..];
      match reply
      case Full =>
        var e := Emit(chunks[1..], rest);
        Emitted(|chunks[0]| + e.n, chunks[0] + e.out, e.err, e.replies)
      case Short(w, cause) =>
        var amt := if w < |chunks[0]| then w else |chunks[0]|;
        Emitted(amt, chunks[0][..amt], Some(cause), rest)
  }

  /** The first failing write ends the callback: everything before it is
      written in full, that write in part, and nothing after it. */
  lemma {:induction false} EmitStopsAtFirstError(chunks: seq<string>, replies: seq<WriteReply>, k: nat)
    requires k < |chunks| && k < |replies|
    requires replies[k].Short?
    requires forall i | 0 <= i < k :: replies[i].Full?
    ensures var amt := if replies[k].written < |chunks[k]| then replies[k].written else |chunks[k]|;
            Emit(chunks, replies) ==
            Emitted(|Concat(chunks[..k])| + amt, Concat(chunks[..k]) + chunks[k][..amt],
                    Some(replies[k].cause), replies[k + 1..])
  {
    if k > 0 {
      EmitStopsAtFirstError(chunks[1..], replies[1..], k - 1);
      assert chunks[..k] == [chunks[0]] + chunks[1..][..k - 1];
      assert replies[1..][k..] == replies[k + 1..];
    } else {
      assert chunks[..0] == [];
    }
  }

  /** `Config.Query` over the entities the query yields: each entity's
      writes, with the count `n` carried across entities, stopping at the
      first entity whose callback fails. */
  function Query<P>(cfg: Config<P>, render: Render<P>, entities: seq<Entity<P>>, replies: seq<WriteReply>): (r: Emitted)
    requires forall i | 0 <= i < |entities| :: DefaultRendered(cfg, entities[i]) ==> HasValues(entities[i])
    ensures r.n == |r.out|
    ensures NeverFails(replies) ==> r.err.None? && r.out == DumpText(cfg, render, entities)
    ensures WritesSucceed(|AllChunks(cfg, render, entities)|, replies) ==>
              r.err.None? && r.out == DumpText(cfg, render, entities)
  {
    if |entities| == 0 then Emitted(0, "", None, replies)
    else
      var chunks := EntityChunks(cfg, render, entities[0]);
      var e := Emit(chunks, replies);
      if e.err.Some? then e
      else
        var q := Query(cfg, render, entities[1..], e.replies);
        assert WritesSucceed(|AllChunks(cfg, render, entities)|, replies) ==>
                 WritesSucceed(|AllChunks(cfg, render, entities[1..])|, e.replies) by {
          if WritesSucceed(|AllChunks(cfg, render, entities)|, replies) {
            assert |AllChunks(cfg, render, entities)| == |chunks| + |AllChunks(cfg, render, entities[1..])|;
            forall i | 0 <= i < |AllChunks(cfg, render, entities[1..])| && i < |e.replies|
              ensures e.replies[i].Full?
            {
              assert e.replies[i] == replies[|chunks| + i];
            }
          }
        }
        Emitted(e.n + q.n, e.out + q.out, q.err, q.replies)
  }

  /** All the writes the callback makes for the entities, one entity after
      the other. */
  function AllChunks<P>(cfg: Config<P>, render: Render<P>, entities: seq<Entity<P>>): seq<string>
    requires forall i | 0 <= i < |entities| :: DefaultRendered(cfg, entities[i]) ==> HasValues(entities[i])
  {
    if |entities| == 0 then []
    else EntityChunks(cfg, render, entities[0]) + AllChunks(cfg, render, entities[1..])
  }

  /** What a run `ea` followed by the writes `b` amounts to: `ea` itself if
      it failed, otherwise `ea` and then the writes of `b` with the answers
      `ea` left unused. */
  function Sequenced(ea: Emitted, b: seq<string>): Emitted
  {
    if ea.err.Some? then ea
    else
      var eb := Emit(b, ea.replies);
      Emitted(ea.n + eb.n, ea.out + eb.out, eb.err, eb.replies)
  }

  /** A complete first write in front of a run carries over to the run
      followed by further writes. */
  lemma SequencedAfterWrite(h: string, ea: Emitted, b: seq<string>)
    ensures var s := Sequenced(ea, b);
            Sequenced(Emitted(|h| + ea.n, h + ea.out, ea.err, ea.replies), b) ==
            Emitted(|h| + s.n, h + s.out, s.err, s.replies)
  {
    if ea.err.None? {
      var eb := Emit(b, ea.replies);
      assert h + (ea.out + eb.out) == (h + ea.out) + eb.out;
    }
  }

  /** Writing `a ++ b` writes `a`, and then `b` unless a write of `a` failed. */
  lemma {:induction false} EmitAppend(a: seq<string>, b: seq<string>, replies: seq<WriteReply>)
    ensures Emit(a + b, replies) == Sequenced(Emit(a, replies), b)
    decreases |a|
  {
    if |a| == 0 {
      assert a + b == b;
    } else {
      var reply := if |replies| == 0 then Full else replies[0];
      var rest := if |replies| == 0 then [] else replies[1..];
      assert (a + b)[0] == a[0];
      assert (a + b)[1..] == a[1..] + b;
      if reply.Full? {
        EmitAppend(a[1..], b, rest);
        SequencedAfterWrite(a[0], Emit(a[1..], rest), b);
      }
    }
  }

  /** Running the query is writing all of its entities' writes in one run:
      the count, the output, the error and the answers left are those of
      `Emit` over them, so the dump stops at its first failing write. */
  lemma {:induction false} QueryWritesAllChunks<P>(cfg: Config<P>, render: Render<P>, entities: seq<Entity<P>>,
                                                  replies: seq<WriteReply>)
    requires forall i | 0 <= i < |entities| :: DefaultRendered(cfg, entities[i]) ==> HasValues(entities[i])
    ensures Query(cfg, render, entities, replies) == Emit(AllChunks(cfg, render, entities), replies)
    decreases |entities|
  {
    if |entities| > 0 {
      var e := Emit(EntityChunks(cfg, render, entities[0]), replies);
      EmitAppend(EntityChunks(cfg, render, entities[0]), AllChunks(cfg, render, entities[1..]), replies);
      if e.err.None? {
        QueryWritesAllChunks(cfg, render, entities[1..], e.replies);
      }
    }
  }

  /** At the query's first failing write, every earlier write of every
      entity is complete, the failing one is cut to what was written, nothing
      later is written, and the write's error is the query's. */
  lemma QueryStopsAtFirstError<P>(cfg: Config<P>, render: Render<P>, entities: seq<Entity<P>>,
                                  replies: seq<WriteReply>, k: nat)
    requires forall i | 0 <= i < |entities| :: DefaultRendered(cfg, entities[i]) ==> HasValues(entities[i])
    requires k < |AllChunks(cfg, render, entities)| && k < |replies|
    requires replies[k].Short?
    requires forall i | 0 <= i < k :: replies[i].Full?
    ensures var all := AllChunks(cfg, render, entities);
            var amt := if replies[k].written < |all[k]| then replies[k].written else |all[k]|;
            Query(cfg, render, entities, replies) ==
            Emitted(|Concat(all[..k])| + amt, Concat(all[..k]) + all[k][..amt],
                    Some(replies[k].cause), replies[k + 1..])
  {
    QueryWritesAllChunks(cfg, render, entities, replies);
    EmitStopsAtFirstError(AllChunks(cfg, render, entities), replies, k);
  }

  /** The complete dump of the entities when no write fails. */
  function DumpText<P>(cfg: Config<P>, render: Render<P>, entities: seq<Entity<P>>): string
    requires forall i | 0 <= i < |entities| :: DefaultRendered(cfg, entities[i]) ==> HasValues(entities[i])
  {
    if |entities| == 0 then ""
    else Concat(EntityChunks(cfg, render, entities[0])) + DumpText(cfg, render, entities[1..])
  }

  // Layout.

  /** The text of one property: `  "name": [v]` and a newline for one value;
      for several, the values one per line, indented by four spaces and
      separated by commas, between `  "name": [` and `  ]`. */
  lemma PropText<P>(cfg: Config<P>, render: Render<P>, kind: string, name: string, vals: seq<P>)
    requires |vals| >= 1
    ensures var q := render.quote(name);
            var vs := RenderedValues(cfg, render, kind, name, vals);
            Concat(PropChunks(cfg, render, kind, name, vals)) ==
            if |vals| == 1 then "  " + q + ": [" + vs[0] + "]\n"
            else "  " + q + ": [\n    " + Join(vs, ",\n    ") + "\n  ]\n"
  {
    var q := render.quote(name);
    var vs := RenderedValues(cfg, render, kind, name, vals);
    if |vals| > 1 {
      var middle := seq(|vals| - 1, i requires 0 <= i < |vals| - 1 => ",\n    " + vs[i + 1]);
      ConcatAppend(["  " + q + ": [\n    " + vs[0]] + middle, ["\n  ]\n"]);
      ConcatAppend(["  " + q + ": [\n    " + vs[0]], middle);
      SeparatedValues(vs);
    }
  }

  /** `v0` followed by `,\n    vi` for each further value is the values
      joined by `,\n    `. */
  lemma {:induction false} SeparatedValues(vs: seq<string>)
    requires |vs| >= 1
    ensures vs[0] + Concat(seq(|vs| - 1, i requires 0 <= i < |vs| - 1 => ",\n    " + vs[i + 1]))
            == Join(vs, ",\n    ")
  {
    var middle := seq(|vs| - 1, i requires 0 <= i < |vs| - 1 => ",\n    " + vs[i + 1]);
    if |vs| > 1 {
      SeparatedValues(vs[1..]);
      var middle' := seq(|vs[1..]| - 1, i requires 0 <= i < |vs[1..]| - 1 => ",\n    " + vs[1..][i + 1]);
      assert middle == [",\n    " + vs[1]] + middle';
      assert Concat(middle) == ",\n    " + vs[1] + Concat(middle');
    } else {
      assert middle == [];
    }
  }

  /** An entity with no kind filter output has its header followed by its
      properties in ascending name order: any strictly ascending list of its
      property names gives the same writes. */
  lemma PropertiesInAscendingOrder<P>(cfg: Config<P>, render: Render<P>, e: Entity<P>, names: seq<string>)
    requires DefaultRendered(cfg, e) && HasValues(e)
    requires StrictlySorted(names) && Elems(names) == e.props.Keys
    ensures forall i | 0 <= i < |names| :: names[i] in e.props && |e.props[names[i]]| >= 1
    ensures EntityChunks(cfg, render, e) == [Header(e.key)] + PropertiesChunks(cfg, render, e, names)
  {
    forall i | 0 <= i < |names|
      ensures names[i] in e.props
    {
      assert names[i] in Elems(names);
    }
    SortedUnique(SortedElements(e.props.Keys), names);
  }

  /** A kind filter whose output is empty leaves the default rendering. */
  lemma EmptyKindFilterFallsBack<P>(cfg: Config<P>, render: Render<P>, e: Entity<P>)
    requires !Skipped(cfg, e.key.kind) && HasValues(e)
    requires e.key.kind in cfg.kindFilters && cfg.kindFilters[e.key.kind](e.key, e.props) == ""
    ensures EntityChunks(cfg, render, e) ==
            [Header(e.key)] + PropertiesChunks(cfg, render, e, SortedElements(e.props.Keys))
  {
  }

  /** Special kinds: "__" itself is one, and such an entity is shown only
      with `withSpecial`. */
  lemma SpecialKinds<P>(cfg: Config<P>, render: Render<P>, e: Entity<P>)
    requires IsSpecialKind(e.key.kind)
    requires DefaultRendered(cfg, e) ==> HasValues(e)
    ensures IsSpecialKind("__") && !IsSpecialKind("_") && !IsSpecialKind("__a")
    ensures EntityChunks(cfg, render, e) == [] <==> !cfg.withSpecial
  {
    assert "__a"[1..] == "_a";
  }
}

=== FILE: memory_info.dfy ===
/** The in-memory `info` service of impl/memory/info.go: a record of
    application data kept in the context, read with defaults and updated by
    cloning it into a new context.

    A context is modelled as the record stored under the package's private
    key, if any, beside the rest of the context (`ambient`), which this
    package never reads or changes. Values are immutable, so a record reached
    through an older context can never change. */
module MemoryInfo {
  import opened Wrappers

  /** globalInfoData. */
  datatype GlobalInfoData = GlobalInfoData(
    appID: string,
    fqAppID: string,
    namespace: string,
    versionID: string,
    requestID: string)

  /** defaultGlobalInfoData: a version and a request id, everything else empty. */
  const DefaultGlobalInfoData: GlobalInfoData :=
    GlobalInfoData("", "", "", "testVersionID.1", "test-request-id")

  /** A context: the record stored under giContextKey, if any, and the rest. */
  datatype InfoContext<A> = InfoContext(ambient: A, gid: Option<GlobalInfoData>)

  /** curGID: the stored record, or the default when none is stored. */
  function CurGID<A>(c: InfoContext<A>): (d: GlobalInfoData)
    ensures c.gid.None? ==> d == DefaultGlobalInfoData
    ensures c.gid.Some? ==> d == c.gid.value
  {
    match c.gid
    case Some(d) => d
    case None => DefaultGlobalInfoData
  }

  /** useGID: a new context holding an updated copy of the current record. */
  function UseGID<A>(c: InfoContext<A>, f: GlobalInfoData -> GlobalInfoData): (r: InfoContext<A>)
    ensures r.ambient == c.ambient
    ensures CurGID(r) == f(CurGID(c))
  {
    c.(gid := Some(f(CurGID(c))))
  }

  /** giImpl: the record read when the implementation was made, and the
      context it was made for. */
  datatype GiImpl<A> = GiImpl(data: GlobalInfoData, c: InfoContext<A>)

  /** The factory `useGI` installs: an implementation over `ic`. */
  function MakeGI<A>(ic: InfoContext<A>): (gi: GiImpl<A>)
    ensures gi.c == ic && gi.data == CurGID(ic)
  {
    GiImpl(CurGID(ic), ic)
  }

  /** The namespace of the record captured when the implementation was made. */
  function GetNamespace<A>(gi: GiImpl<A>): (s: string)
    ensures gi == MakeGI(gi.c) ==> s == CurGID(gi.c).namespace
    ensures gi == MakeGI(gi.c) && gi.c.gid.None? ==> s == ""
  {
    gi.data.namespace
  }

  /** The application id of the captured record. */
  function AppID<A>(gi: GiImpl<A>): (s: string)
    ensures gi == MakeGI(gi.c) ==> s == CurGID(gi.c).appID
    ensures gi == MakeGI(gi.c) && gi.c.gid.None? ==> s == ""
  {
    gi.data.appID
  }

  /** The fully qualified application id of the captured record. */
  function FullyQualifiedAppID<A>(gi: GiImpl<A>): (s: string)
    ensures gi == MakeGI(gi.c) ==> s == CurGID(gi.c).fqAppID
    ensures gi == MakeGI(gi.c) && gi.c.gid.None? ==> s == ""
  {
    gi.data.fqAppID
  }

  /** The application id followed by ".example.com". */
  function DefaultVersionHostname<A>(gi: GiImpl<A>): (h: string)
    ensures |h| == |gi.data.appID| + 12
    ensures h[..|gi.data.appID|] == AppID(gi)
    ensures h[|gi.data.appID|..] == ".example.com"
  {
    gi.data.appID + ".example.com"
  }

  /** The version id of the record stored in the implementation's context
      (not the captured copy), or the default one. */
  function VersionID<A>(gi: GiImpl<A>): (s: string)
    ensures gi.c.gid.Some? ==> s == gi.c.gid.value.versionID
    ensures gi.c.gid.None? ==> s == "testVersionID.1"
  {
    CurGID(gi.c).versionID
  }

  /** The request id of the record stored in the implementation's context,
      or the default one. */
  function RequestID<A>(gi: GiImpl<A>): (s: string)
    ensures gi.c.gid.Some? ==> s == gi.c.gid.value.requestID
    ensures gi.c.gid.None? ==> s == "test-request-id"
  {
    CurGID(gi.c).requestID
  }

  /** A context whose record differs from the current one only in its
      version id. */
  function SetVersionID<A>(gi: GiImpl<A>, v: string): (r: InfoContext<A>)
    ensures r.ambient == gi.c.ambient
    ensures CurGID(r) == CurGID(gi.c).(versionID := v)
  {
    UseGID(gi.c, (d: GlobalInfoData) => d.(versionID := v))
  }

  /** A context whose record differs from the current one only in its
      request id. */
  function SetRequestID<A>(gi: GiImpl<A>, v: string): (r: InfoContext<A>)
    ensures r.ambient == gi.c.ambient
    ensures CurGID(r) == CurGID(gi.c).(requestID := v)
  {
    UseGID(gi.c, (d: GlobalInfoData) => d.(requestID := v))
  }

  /** `Namespace(ns)`: with an invalid namespace, the implementation's own
      context and the validator's error; otherwise a context whose record
      differs only in its namespace. `validate` stands for
      support.ValidNamespace and returns its error, if any. */
  function Namespace<A>(gi: GiImpl<A>, ns: string, validate: string -> Option<string>): (r: (InfoContext<A>, Option<string>))
    ensures validate(ns).Some? ==> r == (gi.c, validate(ns))
    ensures validate(ns).None? ==>
              && r.1.None?
              && r.0.ambient == gi.c.ambient
              && CurGID(r.0) == CurGID(gi.c).(namespace := ns)
  {
    match validate(ns)
    case Some(err) => (gi.c, Some(err))
    case None => (UseGID(gi.c, (d: GlobalInfoData) => d.(namespace := ns)), None)
  }

  /** With nothing stored, an implementation reports the default record. */
  lemma DefaultRecord<A>(a: A)
    ensures var gi := MakeGI(InfoContext(a, None));
            && VersionID(gi) == "testVersionID.1"
            && RequestID(gi) == "test-request-id"
            && GetNamespace(gi) == "" && AppID(gi) == "" && FullyQualifiedAppID(gi) == ""
            && DefaultVersionHostname(gi) == ".example.com"
  {
  }

  /** Setting the version id and reading it back through a new implementation
      gives the new value, and the other readings are unchanged. */
  lemma SetVersionIDRoundTrip<A>(gi: GiImpl<A>, v: string)
    ensures var gi' := MakeGI(SetVersionID(gi, v));
            && VersionID(gi') == v
            && RequestID(gi') == RequestID(gi)
            && GetNamespace(gi') == CurGID(gi.c).namespace
            && AppID(gi') == CurGID(gi.c).appID
  {
  }

  /** Setting the request id and reading it back gives the new value, and the
      version id is unchanged. */
  lemma SetRequestIDRoundTrip<A>(gi: GiImpl<A>, v: string)
    ensures var gi' := MakeGI(SetRequestID(gi, v));
            && RequestID(gi') == v
            && VersionID(gi') == VersionID(gi)
  {
  }

  /** A valid namespace is read back by the next implementation. */
  lemma NamespaceRoundTrip<A>(gi: GiImpl<A>, ns: string, validate: string -> Option<string>)
    requires validate(ns).None?
    ensures GetNamespace(MakeGI(Namespace(gi, ns, validate).0)) == ns
    ensures VersionID(MakeGI(Namespace(gi, ns, validate).0)) == VersionID(gi)
  {
  }

  /** Updates compose: the last write to a field wins and the others keep
      what the earlier update left. */
  lemma UpdatesCompose<A>(c: InfoContext<A>, v: string, r: string)
    ensures CurGID(SetRequestID(MakeGI(SetVersionID(MakeGI(c), v)), r)) ==
            CurGID(c).(versionID := v, requestID := r)
  {
  }
}

=== FILE: module_context.dfy ===
/** The `module` service plumbing of service/module/context.go: a factory and
    a list of filters kept in the context, combined by `Get`.

    A context is an immutable map from the package's two private keys to what
    is stored under them, beside the rest of the context (`ambient`).
    Factories and filters receive the rest of the context; an implementation
    of `I` that may be nil is an `Option<I>`. */
module ModuleContext {
  import opened Wrappers

  /** moduleKey and moduleFilterKey. */
  datatype Key = ModuleKey | ModuleFilterKey

  /** What is stored under a key: a factory (possibly nil), or the filters. */
  datatype Slot<!A, !I> =
    | FactorySlot(factory: Option<A -> Option<I>>)
    | FiltersSlot(filters: seq<(A, Option<I>) -> Option<I>>)

  datatype Context<!A, !I> = Context(ambient: A, values: map<Key, Slot<A, I>>)

  /** getUnfiltered: the factory's result, or nil when no non-nil factory is
      stored. */
  function GetUnfiltered<A, I>(c: Context<A, I>): (r: Option<I>)
    ensures (ModuleKey !in c.values || !c.values[ModuleKey].FactorySlot?
             || c.values[ModuleKey].factory.None?) ==> r.None?
    ensures ModuleKey in c.values && c.values[ModuleKey].FactorySlot?
            && c.values[ModuleKey].factory.Some? ==>
              r == c.values[ModuleKey].factory.value(c.ambient)
  {
    if ModuleKey in c.values then
      match c.values[ModuleKey]
      case FactorySlot(Some(f)) => f(c.ambient)
      case _ => None
    else None
  }

  /** getCurFilters: the stored filters, or none. */
  function GetCurFilters<A, I>(c: Context<A, I>): (r: seq<(A, Option<I>) -> Option<I>>)
    ensures ModuleFilterKey in c.values && c.values[ModuleFilterKey].FiltersSlot? ==>
              r == c.values[ModuleFilterKey].filters
    ensures ModuleFilterKey !in c.values ==> r == []
  {
    if ModuleFilterKey in c.values then
      match c.values[ModuleFilterKey]
      case FiltersSlot(fs) => fs
      case _ => []
    else []
  }

  /** Applies filters in order, each to the previous one's result. */
  function ApplyFilters<A, I>(fs: seq<(A, Option<I>) -> Option<I>>, a: A, x: Option<I>): Option<I>
  {
    if |fs| == 0 then x else ApplyFilters(fs[1..], a, fs[0](a, x))
  }

  /** Get: nil without a factory; otherwise the factory's result passed
      through the filters in the order they were added. */
  function Get<A, I>(c: Context<A, I>): (r: Option<I>)
    ensures GetUnfiltered(c).None? ==> r.None?
    ensures |GetCurFilters(c)| == 0 ==> r == GetUnfiltered(c)
    ensures |GetCurFilters(c)| > 0 && GetUnfiltered(c).Some? ==>
              r == ApplyFilters(GetCurFilters(c)[1..], c.ambient,
                                GetCurFilters(c)[0](c.ambient, GetUnfiltered(c)))
  {
    var ret := GetUnfiltered(c);
    if ret.None? then None
    else ApplyFilters(GetCurFilters(c), c.ambient, ret)
  }

  /** SetFactory: stores the factory and leaves the filters alone. */
  function SetFactory<A, I>(c: Context<A, I>, gif: Option<A -> Option<I>>): (r: Context<A, I>)
    ensures r.ambient == c.ambient
    ensures GetCurFilters(r) == GetCurFilters(c)
    ensures gif.Some? ==> GetUnfiltered(r) == gif.value(c.ambient)
    ensures gif.None? ==> GetUnfiltered(r).None?
  {
    c.(values := c.values[ModuleKey := FactorySlot(gif)])
  }

  /** Set: a factory that always returns `gi`. */
  function Set<A, I>(c: Context<A, I>, gi: Option<I>): (r: Context<A, I>)
    ensures r.ambient == c.ambient
    ensures GetUnfiltered(r) == gi
    ensures GetCurFilters(r) == GetCurFilters(c)
  {
    SetFactory(c, Some((_: A) => gi))
  }

  /** AddFilters: the current filters followed by the new ones; adding none
      returns the context itself. */
  function AddFilters<A, I>(c: Context<A, I>, filts: seq<(A, Option<I>) -> Option<I>>): (r: Context<A, I>)
    ensures |filts| == 0 ==> r == c
    ensures GetCurFilters(r) == GetCurFilters(c) + filts
    ensures r.ambient == c.ambient
    ensures GetUnfiltered(r) == GetUnfiltered(c)
  {
    if |filts| == 0 then c
    else c.(values := c.values[ModuleFilterKey := FiltersSlot(GetCurFilters(c) + filts)])
  }

  /** Applying `fs ++ gs` is applying `fs`, then `gs`. */
  lemma {:induction false} ApplyFiltersAppend<A, I>(fs: seq<(A, Option<I>) -> Option<I>>,
                                                   gs: seq<(A, Option<I>) -> Option<I>>, a: A, x: Option<I>)
    ensures ApplyFilters(fs + gs, a, x) == ApplyFilters(gs, a, ApplyFilters(fs, a, x))
    decreases |fs|
  {
    if |fs| == 0 {
      assert fs + gs == gs;
    } else {
      assert (fs + gs)[0] == fs[0];
      assert (fs + gs)[1..] == fs[1..] + gs;
      ApplyFiltersAppend(fs[1..], gs, a, fs[0](a, x));
    }
  }

  /** Adding filters applies them after the ones already present. */
  lemma GetAfterAddFilters<A, I>(c: Context<A, I>, gs: seq<(A, Option<I>) -> Option<I>>)
    requires GetUnfiltered(c).Some?
    ensures Get(AddFilters(c, gs)) == ApplyFilters(gs, c.ambient, Get(c))
  {
    ApplyFiltersAppend(GetCurFilters(c), gs, c.ambient, GetUnfiltered(c));
  }

  /** Adding `fs`, then `gs`, is adding `fs ++ gs`. */
  lemma AddFiltersCompose<A, I>(c: Context<A, I>, fs: seq<(A, Option<I>) -> Option<I>>,
                                gs: seq<(A, Option<I>) -> Option<I>>)
    ensures AddFilters(AddFilters(c, fs), gs) == AddFilters(c, fs + gs)
  {
    if |fs| == 0 {
      assert fs + gs == gs;
    } else if |gs| == 0 {
      assert fs + gs == fs;
    } else {
      assert GetCurFilters(c) + fs + gs == GetCurFilters(c) + (fs + gs);
    }
  }

  /** After `Set(c, gi)` in a context without filters, `Get` returns `gi`. */
  lemma GetAfterSet<A, I>(c: Context<A, I>, gi: Option<I>)
    requires |GetCurFilters(c)| == 0
    ensures Get(Set(c, gi)) == gi
  {
  }

  /** Filters run in the order they were added: two filters added one after
      the other see the factory's value, then the first filter's result. */
  lemma FiltersRunInOrder<A, I>(c: Context<A, I>, gi: I,
                                f: (A, Option<I>) -> Option<I>, g: (A, Option<I>) -> Option<I>)
    requires |GetCurFilters(c)| == 0
    ensures Get(AddFilters(AddFilters(Set(c, Some(gi)), [f]), [g])) ==
            g(c.ambient, f(c.ambient, Some(gi)))
  {
    var c1 := Set(c, Some(gi));
    GetAfterAddFilters(c1, [f]);
    GetAfterAddFilters(AddFilters(c1, [f]), [g]);
  }
}

=== FILE: refresh.dfy ===
/** The access-token refresh policy of impl/cloud/google.go, with time as
    integer nanoseconds and the random draw passed in. */
module Refresh {
  import opened Wrappers

  const Second: int := 1_000_000_000
  const Minute: int := 60 * Second

  /** Tokens are expired early by this much, so that a freshly fetched token
      is still usable (accessTokenMinExpiration). */
  const AccessTokenMinExpiration: int := 2 * Minute

  /** The window before expiry in which callers are randomly selected to
      refresh (accessTokenExpirationRandomization). */
  const AccessTokenExpirationRandomization: int := 3 * Minute

  /** Whether a caller refreshes a token expiring at `exp`, given the draw
      `rnd` of `mathrand.Int63n(window)`: always once expired, never while the
      expiry is more than `window` away, and in between when `now + rnd` is
      past the expiry. The three cases collapse into the last test. */
  function CloseToExpRandomized(now: int, exp: int, window: int, rnd: int): (r: bool)
    requires 0 <= rnd < window
    ensures now > exp ==> r
    ensures exp - now >= window ==> !r
    ensures 0 <= exp - now < window ==> (r <==> rnd > exp - now)
    ensures r <==> now + rnd > exp
  {
    if now > exp then true
    else if now + window < exp then false
    else now + rnd > exp
  }

  /** For one draw, a caller that would refresh at `now` would also refresh at
      any later instant: the selection never flips back as time passes. */
  lemma RefreshStaysDue(now: int, later: int, exp: int, window: int, rnd: int)
    requires 0 <= rnd < window
    requires now <= later
    requires CloseToExpRandomized(now, exp, window, rnd)
    ensures CloseToExpRandomized(later, exp, window, rnd)
  {
  }

  /** Inside the window some draws refresh and some do not (when the expiry
      is at least one nanosecond away and there is room above it). */
  lemma BandIsRandomized(now: int, exp: int, window: int)
    requires 0 <= exp - now && exp - now + 1 < window
    ensures !CloseToExpRandomized(now, exp, window, 0)
    ensures CloseToExpRandomized(now, exp, window, exp - now + 1)
  {
  }

  /** Why a freshly minted token is refused. */
  datatype MintError = ExpiredAccessToken(expiry: int, now: int)

  /** What the loader hands to the cache: the (possibly shortened) expiry of
      the token and the time the entry is to live. */
  datatype Adjusted = Adjusted(expiry: int, ttl: int)

  /** The adjustment the `Token()` loader makes to a minted token's expiry:
      an already-expired token is an error; a token with more than
      `AccessTokenMinExpiration` left is expired early by that amount; a
      token with less left is kept as it is, living out its lifetime. */
  function AdjustMinted(now: int, expiry: int): (r: Result<Adjusted, MintError>)
    ensures r.Failure? <==> expiry <= now
    ensures r.Failure? ==> r.error == ExpiredAccessToken(expiry, now)
    ensures r.Success? ==> r.value.ttl > 0 && r.value.ttl == r.value.expiry - now
    ensures r.Success? && expiry - now > AccessTokenMinExpiration ==>
              r.value.expiry == expiry - AccessTokenMinExpiration
    ensures r.Success? && expiry - now <= AccessTokenMinExpiration ==> r.value.expiry == expiry
  {
    var expiryDelta := expiry - now;
    if expiryDelta <= 0 then Failure(ExpiredAccessToken(expiry, now))
    else if expiryDelta > AccessTokenMinExpiration then
      Success(Adjusted(expiry - AccessTokenMinExpiration, expiryDelta - AccessTokenMinExpiration))
    else Success(Adjusted(expiry, expiryDelta))
  }

  /** The cached expiry is never later than the real one and never more than
      `AccessTokenMinExpiration` earlier, and it is still in the future. */
  lemma AdjustedExpiryConservative(now: int, expiry: int)
    requires expiry > now
    ensures AdjustMinted(now, expiry).Success?
    ensures var a := AdjustMinted(now, expiry).value;
            now < a.expiry <= expiry && expiry - AccessTokenMinExpiration <= a.expiry
  {
  }

  /** A freshly minted token whose lifetime exceeds the early-expiry amount
      plus the window is served from the cache at the mint instant, whatever
      the draw. */
  lemma FreshMintNotRefreshed(now: int, expiry: int, rnd: int)
    requires 0 <= rnd < AccessTokenExpirationRandomization
    requires expiry - now >= AccessTokenMinExpiration + AccessTokenExpirationRandomization
    ensures AdjustMinted(now, expiry).Success?
    ensures !CloseToExpRandomized(now, AdjustMinted(now, expiry).value.expiry,
                                  AccessTokenExpirationRandomization, rnd)
  {
  }

  /** The ten-minute token: minted at `t` with ten minutes to live, it is
      cached until `t + 8min`; one minute later no draw refreshes it, at
      `t + 7min` a draw refreshes it exactly when it exceeds one minute, and
      at `t + 9min` every draw refreshes it. */
  lemma TenMinuteToken(t: int, rnd: int)
    requires 0 <= rnd < AccessTokenExpirationRandomization
    ensures AdjustMinted(t, t + 10 * Minute) == Success(Adjusted(t + 8 * Minute, 8 * Minute))
    ensures !CloseToExpRandomized(t + Minute, t + 8 * Minute, AccessTokenExpirationRandomization, rnd)
    ensures CloseToExpRandomized(t + 7 * Minute, t + 8 * Minute, AccessTokenExpirationRandomization, rnd)
            <==> rnd > Minute
    ensures CloseToExpRandomized(t + 9 * Minute, t + 8 * Minute, AccessTokenExpirationRandomization, rnd)
  {
  }
}

=== FILE: scopes.dfy ===
/** The cache key of an access token: a normalisation of the OAuth2 scopes it
    was minted for (`accessTokenKeyForScopes` in impl/cloud/google.go). */
module Scopes {
  import opened Strings

  /** The separator placed between scopes in a key (Go's "\x00"). */
  const ScopeSeparator: char := '\0'

  /** Deduplicates the scopes (through a Go map), sorts them and joins them
      with the separator. */
  function AccessTokenKeyForScopes(scopes: seq<string>): string
  {
    Join(SortedElements(Elems(scopes)), [ScopeSeparator])
  }

  /** A scope list that can be told apart from every other through its key:
      at least one scope, and no scope containing the separator. */
  predicate Separable(scopes: seq<string>)
  {
    |scopes| > 0 && forall i | 0 <= i < |scopes| :: ScopeSeparator !in scopes[i]
  }

  /** The key is the strictly ascending list of distinct scopes joined by the
      separator: any such list of the same scopes gives the same key. */
  lemma KeyIsSortedDistinctJoin(scopes: seq<string>, sorted: seq<string>)
    requires StrictlySorted(sorted)
    requires Elems(sorted) == Elems(scopes)
    ensures AccessTokenKeyForScopes(scopes) == Join(sorted, [ScopeSeparator])
  {
    SortedUnique(SortedElements(Elems(scopes)), sorted);
  }

  /** Reordering or repeating scopes does not change the key. */
  lemma KeyIgnoresOrderAndDuplicates(a: seq<string>, b: seq<string>)
    requires Elems(a) == Elems(b)
    ensures AccessTokenKeyForScopes(a) == AccessTokenKeyForScopes(b)
  {
  }

  /** No scopes give the empty key. */
  lemma NoScopesEmptyKey()
    ensures AccessTokenKeyForScopes([]) == ""
  {
    assert Elems([]) == {};
  }

  /** Reading a key back: the scopes between separators. */
  function ScopesOfKey(key: string): seq<string>
  {
    Split(key, ScopeSeparator)
  }

  /** Splitting the key of separable scopes gives back the sorted distinct
      scopes, so the key loses nothing but order and repetition. */
  lemma {:induction false} KeyRoundTrip(scopes: seq<string>)
    requires Separable(scopes)
    ensures Elems(ScopesOfKey(AccessTokenKeyForScopes(scopes))) == Elems(scopes)
    ensures StrictlySorted(ScopesOfKey(AccessTokenKeyForScopes(scopes)))
  {
    var sorted := SortedElements(Elems(scopes));
    assert scopes[0] in Elems(scopes);
    forall i | 0 <= i < |sorted|
      ensures ScopeSeparator !in sorted[i]
    {
      assert sorted[i] in Elems(sorted);
    }
    SplitJoin(sorted, ScopeSeparator);
  }

  /** Distinct sets of separable scopes give distinct keys. */
  lemma KeyInjective(a: seq<string>, b: seq<string>)
    requires Separable(a) && Separable(b)
    requires AccessTokenKeyForScopes(a) == AccessTokenKeyForScopes(b)
    ensures Elems(a) == Elems(b)
  {
    KeyRoundTrip(a);
    KeyRoundTrip(b);
  }
}

=== FILE: strings.dfy ===
/** String helpers the Go code takes from its standard library: the order
    `sort.Strings` and `<` use, sorting the keys of a Go map, `strings.Join`
    and `strings.Split`.

    Go compares strings byte by byte. The model's strings are sequences of
    Unicode scalar values, and for valid UTF-8 the byte order and the code
    point order agree, so `Less` compares characters. */
module Strings {

  /** Go's `a < b` on strings: strict lexicographic order. */
  predicate Less(a: string, b: string)
    decreases |a|
  {
    if |a| == 0 then |b| > 0
    else if |b| == 0 then false
    else if a[0] != b[0] then a[0] < b[0]
    else Less(a[1..], b[1..])
  }

  lemma LessIrreflexive(a: string)
    ensures !Less(a, a)
  {
  }

  lemma LessAsymmetric(a: string, b: string)
    ensures Less(a, b) ==> !Less(b, a)
  {
  }

  lemma {:induction false} LessTransitive(a: string, b: string, c: string)
    requires Less(a, b) && Less(b, c)
    ensures Less(a, c)
    decreases |a|
  {
    if |a| > 0 && |b| > 0 && |c| > 0 && a[0] == b[0] && b[0] == c[0] {
      LessTransitive(a[1..], b[1..], c[1..]);
    }
  }

  lemma {:induction false} LessTotal(a: string, b: string)
    ensures a == b || Less(a, b) || Less(b, a)
    decreases |a|
  {
    if |a| > 0 && |b| > 0 && a[0] == b[0] {
      LessTotal(a[1..], b[1..]);
      if a[1..] == b[1..] {
        assert a == [a[0]] + a[1..] && b == [b[0]] + b[1..];
      }
    }
  }

  /** Every two positions are in strictly ascending order (so no duplicates). */
  predicate StrictlySorted(xs: seq<string>)
  {
    forall i, j :: 0 <= i < j < |xs| ==> Less(xs[i], xs[j])
  }

  /** The set of elements of a sequence. */
  function Elems(xs: seq<string>): set<string>
  {
    set x | x in xs
  }

  /** `m` is the least element of `s`. */
  predicate IsLeast(m: string, s: set<string>)
  {
    m in s && forall y | y in s && y != m :: Less(m, y)
  }

  lemma {:induction false} LeastExists(s: set<string>)
    requires s != {}
    ensures exists m :: IsLeast(m, s)
    decreases |s|
  {
    var x :| x in s;
    if s - {x} == {} {
      assert s == {x};
      assert IsLeast(x, s);
    } else {
      LeastExists(s - {x});
      var m :| IsLeast(m, s - {x});
      LessTotal(x, m);
      if Less(x, m) {
        forall y | y in s && y != x
          ensures Less(x, y)
        {
          if y != m {
            LessTransitive(x, m, y);
          }
        }
        assert IsLeast(x, s);
      } else {
        assert IsLeast(m, s);
      }
    }
  }

  /** The least element of a non-empty set. */
  function Least(s: set<string>): (m: string)
    requires s != {}
    ensures IsLeast(m, s)
  {
    LeastExists(s);
    var m :| IsLeast(m, s);
    assert forall m' | IsLeast(m', s) :: m' == m by {
      forall m' | IsLeast(m', s)
        ensures m' == m
      {
        if m' != m {
          LessAsymmetric(m, m');
        }
      }
    }
    m
  }

  /** The elements of a set in ascending order: what Go obtains by ranging
      over a map's keys and calling `sort.Strings` on the result. */
  function SortedElements(s: set<string>): (r: seq<string>)
    ensures StrictlySorted(r)
    ensures Elems(r) == s
    ensures |r| == |s|
    decreases |s|
  {
    if s == {} then []
    else
      var m := Least(s);
      var rest := SortedElements(s - {m});
      LeastFirst(m, s, rest);
      [m] + rest
  }

  lemma LeastFirst(m: string, s: set<string>, rest: seq<string>)
    requires IsLeast(m, s)
    requires StrictlySorted(rest) && Elems(rest) == s - {m} && |rest| == |s - {m}|
    ensures StrictlySorted([m] + rest)
    ensures Elems([m] + rest) == s
    ensures |[m] + rest| == |s|
  {
    forall j | 0 <= j < |rest|
      ensures Less(m, rest[j])
    {
      assert rest[j] in Elems(rest);
    }
    assert Elems([m] + rest) == {m} + Elems(rest);
  }

  lemma ElemsOfNonEmpty(xs: seq<string>)
    ensures |xs| > 0 ==> xs[0] in Elems(xs)
  {
  }

  lemma ElemsOfTail(xs: seq<string>)
    requires StrictlySorted(xs) && |xs| > 0
    ensures Elems(xs[1..]) == Elems(xs) - {xs[0]}
  {
    forall x | x in Elems(xs[1..])
      ensures x != xs[0]
    {
      var j :| 0 <= j < |xs[1..]| && xs[1..][j] == x;
      assert Less(xs[0], xs[j + 1]);
      LessIrreflexive(xs[0]);
    }
    assert xs == [xs[0]] + xs[1..];
  }

  /** A strictly sorted sequence is determined by its set of elements. */
  lemma {:induction false} SortedUnique(a: seq<string>, b: seq<string>)
    requires StrictlySorted(a) && StrictlySorted(b)
    requires Elems(a) == Elems(b)
    ensures a == b
    decreases |a|
  {
    if |a| == 0 {
      ElemsOfNonEmpty(b);
    } else {
      assert a[0] in Elems(b);
      assert |b| > 0;
      assert b[0] in Elems(a);
      if a[0] != b[0] {
        var i :| 0 <= i < |a| && a[i] == b[0];
        var j :| 0 <= j < |b| && b[j] == a[0];
        assert Less(a[0], a[i]);
        assert Less(b[0], b[j]);
        LessAsymmetric(a[0], b[0]);
      }
      ElemsOfTail(a);
      ElemsOfTail(b);
      SortedUnique(a[1..], b[1..]);
      assert a == [a[0]] + a[1..] && b == [b[0]] + b[1..];
    }
  }

  /** Go's `strings.Join(xs, sep)`. */
  function Join(xs: seq<string>, sep: string): string
  {
    if |xs| == 0 then ""
    else if |xs| == 1 then xs[0]
    else xs[0] + sep + Join(xs[1..], sep)
  }

  /** Go's `strings.Split(s, sep)` for a one-character separator: the pieces
      between separators, so there is always at least one piece and
      `Split("", sep) == [""]`. */
  function Split(s: string, sep: char): (r: seq<string>)
    ensures |r| >= 1
  {
    if |s| == 0 then [""]
    else
      var rest := Split(s[1..], sep);
      if s[0] == sep then [""] + rest
      else [[s[0]] + rest[0]] + rest[1..]
  }

  /** Joining the pieces of a split gives back the string. */
  lemma {:induction false} JoinSplit(s: string, sep: char)
    ensures Join(Split(s, sep), [sep]) == s
  {
    if |s| > 0 {
      var rest := Split(s[1..], sep);
      JoinSplit(s[1..], sep);
      assert s == [s[0]] + s[1..];
      if s[0] != sep {
        var r := Split(s, sep);
        assert r[1..] == rest[1..];
        if |rest| > 1 {
          assert Join(r, [sep]) == [s[0]] + rest[0] + [sep] + Join(rest[1..], [sep]);
        }
      }
    }
  }

  lemma {:induction false} SplitWithoutSeparator(a: string, sep: char)
    requires sep !in a
    ensures Split(a, sep) == [a]
  {
    if |a| > 0 {
      SplitWithoutSeparator(a[1..], sep);
      assert a == [a[0]] + a[1..];
    }
  }

  lemma {:induction false} SplitAfterPiece(a: string, sep: char, b: string)
    requires sep !in a
    ensures Split(a + [sep] + b, sep) == [a] + Split(b, sep)
  {
    if |a| == 0 {
      assert a + [sep] + b == [sep] + b;
      assert (a + [sep] + b)[1..] == b;
    } else {
      SplitAfterPiece(a[1..], sep, b);
      assert (a + [sep] + b)[1..] == a[1..] + [sep] + b;
      assert a == [a[0]] + a[1..];
    }
  }

  /** Splitting a join of one or more separator-free pieces gives back the
      pieces. */
  lemma {:induction false} SplitJoin(xs: seq<string>, sep: char)
    requires |xs| >= 1
    requires forall i | 0 <= i < |xs| :: sep !in xs[i]
    ensures Split(Join(xs, [sep]), sep) == xs
  {
    if |xs| == 1 {
      SplitWithoutSeparator(xs[0], sep);
    } else {
      SplitJoin(xs[1..], sep);
      SplitAfterPiece(xs[0], sep, Join(xs[1..], [sep]));
      assert xs == [xs[0]] + xs[1..];
    }
  }

  /** The concatenation of a sequence of strings. */
  function Concat(xs: seq<string>): string
  {
    if |xs| == 0 then "" else xs[0] + Concat(xs[1..])
  }

  lemma {:induction false} ConcatAppend(xs: seq<string>, ys: seq<string>)
    ensures Concat(xs + ys) == Concat(xs) + Concat(ys)
  {
    if |xs| > 0 {
      ConcatAppend(xs[1..], ys);
      assert (xs + ys)[1..] == xs[1..] + ys;
    } else {
      assert xs + ys == ys;
    }
  }

  predicate HasPrefix(s: string, p: string)
  {
    |p| <= |s| && s[..|p|] == p
  }

  predicate HasSuffix(s: string, p: string)
  {
    |p| <= |s| && s[|s| - |p|..] == p
  }
}

=== FILE: token_source.dfy ===
/** `contextBoundTokenSource.Token()` of impl/cloud/google.go: serve a cached
    access token unless it is close to expiry, otherwise mint one under the
    cache's `GetOrCreate`.

    The LRU cache is not modelled. A call sees it through a `CacheView`: what
    `Get` returned for the key, and whether `GetOrCreate` found a live entry
    (and returned it without running the loader) or ran the loader. */
module TokenSource {
  import opened Wrappers
  import opened Refresh

  /** An OAuth2 token: its opaque value and its absolute expiry. */
  datatype Token = Token(accessToken: string, expiry: int)

  /** How the cache answered the two lookups of one `Token()` call. */
  datatype CacheView = CacheView(get: Option<Token>, existing: Option<Token>)

  /** The outside world of one call: the clock, the random draw, the outcome
      of `makeTokenSource` (an error or none) and of minting a token. */
  datatype Environment = Environment(
    now: int,
    rnd: int,
    sourceError: Option<string>,
    minted: Result<Token, string>)

  /** Why minting through the loader failed. */
  datatype MintFailure =
    | SourceTokenFailed(cause: string)
    | Expired(error: MintError)

  /** The errors `Token()` returns. */
  datatype TokenError =
    | CreateSourceFailed(cause: string)
    | MintFailed(reason: MintFailure)

  /** What one call did: its result, whether it asked for a token source,
      whether the loader ran, and what the loader handed to the cache. */
  datatype Call = Call(
    result: Result<Token, TokenError>,
    madeSource: bool,
    loaderRan: bool,
    loaded: Option<(Token, int)>)

  /** The loader passed to `GetOrCreate`: mint, then adjust the expiry. It
      returns the token with its cache lifetime. */
  function Loader(now: int, minted: Result<Token, string>): (r: Result<(Token, int), MintFailure>)
    ensures minted.Failure? ==> r == Failure(SourceTokenFailed(minted.error))
    ensures minted.Success? ==>
              (r.Success? <==> minted.value.expiry > now)
    ensures r.Success? ==>
              && minted.Success?
              && r.value.0.accessToken == minted.value.accessToken
              && r.value.1 > 0
              && r.value.1 == r.value.0.expiry - now
              && r.value.0.expiry <= minted.value.expiry
    ensures r.Success? && minted.value.expiry - now > AccessTokenMinExpiration ==>
              r.value.0.expiry == minted.value.expiry - AccessTokenMinExpiration
    ensures r.Success? && minted.value.expiry - now <= AccessTokenMinExpiration ==>
              r.value.0.expiry == minted.value.expiry
    ensures minted.Success? && minted.value.expiry <= now ==>
              r == Failure(Expired(ExpiredAccessToken(minted.value.expiry, now)))
  {
    match minted
    case Failure(e) => Failure(SourceTokenFailed(e))
    case Success(tok) =>
      match AdjustMinted(now, tok.expiry)
      case Failure(err) => Failure(Expired(err))
      case Success(a) => Success((tok.(expiry := a.expiry), a.ttl))
  }

  /** Whether the token `Get` returned is served without refreshing. */
  predicate ServedFromCache(cache: CacheView, env: Environment)
    requires 0 <= env.rnd < AccessTokenExpirationRandomization
  {
    && cache.get.Some?
    && !CloseToExpRandomized(env.now, cache.get.value.expiry,
                             AccessTokenExpirationRandomization, env.rnd)
  }

  /** One call of `Token()`. */
  function TokenCall(cache: CacheView, env: Environment): (c: Call)
    requires 0 <= env.rnd < AccessTokenExpirationRandomization
    ensures ServedFromCache(cache, env) ==>
              c == Call(Success(cache.get.value), false, false, None)
    ensures c.madeSource <==> !ServedFromCache(cache, env)
    ensures c.madeSource && env.sourceError.Some? ==>
              c.result == Failure(CreateSourceFailed(env.sourceError.value)) && !c.loaderRan
    ensures c.loaderRan <==> c.madeSource && env.sourceError.None? && cache.existing.None?
    ensures c.madeSource && env.sourceError.None? && cache.existing.Some? ==>
              c.result == Success(cache.existing.value)
    ensures c.loaderRan && env.minted.Failure? ==>
              c.result == Failure(MintFailed(SourceTokenFailed(env.minted.error)))
    ensures c.loaderRan && env.minted.Success? ==>
              (c.result.Success? <==> env.minted.value.expiry > env.now)
    ensures c.loaderRan && c.result.Success? ==>
              && env.minted.Success?
              && env.now < c.result.value.expiry <= env.minted.value.expiry
              && c.result.value.accessToken == env.minted.value.accessToken
              && c.loaded == Some((c.result.value, c.result.value.expiry - env.now))
    ensures c.loaderRan && c.result.Success? && env.minted.value.expiry - env.now > AccessTokenMinExpiration ==>
              c.result.value.expiry == env.minted.value.expiry - AccessTokenMinExpiration
    ensures c.loaderRan && c.result.Success? && env.minted.value.expiry - env.now <= AccessTokenMinExpiration ==>
              c.result.value.expiry == env.minted.value.expiry
    ensures c.loaderRan && env.minted.Success? && env.minted.value.expiry <= env.now ==>
              c.result == Failure(MintFailed(Expired(ExpiredAccessToken(env.minted.value.expiry, env.now))))
    ensures c.result.Failure? ==> c.loaded.None?
    ensures !c.loaderRan ==> c.loaded.None?
  {
    if ServedFromCache(cache, env) then
      Call(Success(cache.get.value), false, false, None)
    else if env.sourceError.Some? then
      Call(Failure(CreateSourceFailed(env.sourceError.value)), true, false, None)
    else if cache.existing.Some? then
      Call(Success(cache.existing.value), true, false, None)
    else
      match Loader(env.now, env.minted)
      case Failure(f) => Call(Failure(MintFailed(f)), true, true, None)
      case Success(entry) => Call(Success(entry.0), true, true, Some(entry))
  }

  /** A token served from the cache is not expired at the call's instant. */
  lemma CachedTokenNotExpired(cache: CacheView, env: Environment)
    requires 0 <= env.rnd < AccessTokenExpirationRandomization
    requires ServedFromCache(cache, env)
    ensures TokenCall(cache, env).result.value.expiry >= env.now
  {
  }

  /** Repeated calls while the cached token is further than the window from
      its expiry all return that same token and never mint, whatever their
      draws. */
  lemma RepeatedCallsWithinFreshWindow(cache: CacheView, e1: Environment, e2: Environment)
    requires 0 <= e1.rnd < AccessTokenExpirationRandomization
    requires 0 <= e2.rnd < AccessTokenExpirationRandomization
    requires cache.get.Some?
    requires cache.get.value.expiry - e1.now >= AccessTokenExpirationRandomization
    requires cache.get.value.expiry - e2.now >= AccessTokenExpirationRandomization
    ensures TokenCall(cache, e1).result == TokenCall(cache, e2).result == Success(cache.get.value)
    ensures !TokenCall(cache, e1).madeSource && !TokenCall(cache, e2).madeSource
  {
  }

  /** A cached token past its expiry is not served from the `Get` fast path:
      the call makes a token source. */
  lemma ExpiredTokenRefreshed(cache: CacheView, env: Environment)
    requires 0 <= env.rnd < AccessTokenExpirationRandomization
    requires cache.get.Some? && env.now > cache.get.value.expiry
    ensures TokenCall(cache, env).madeSource
  {
  }
}

=== FILE: wrappers.dfy ===
/** Failure-carrying values used across the model: Go's `(value, error)`
    pairs become a `Result`, and Go's nil-able values become an `Option`. */
module Wrappers {

  /** A value that may be absent (Go's nil pointer or nil interface). */
  datatype Option<+T> = None | Some(value: T)

  /** Either a value or an error (Go's `(v, err)` return convention). */
  datatype Result<+T, +E> = Success(value: T) | Failure(error: E)
}
